=== FILE: README.md ===
# Spoken-English practice app: the speech, question and model-calling core

This project models the core of an English-speaking practice web app, in Dafny:

- **Credential cache.** The browser keeps one cached speech-service credential. It is reused while the token's `exp` claim lies in the future.
- **Synthesizer sentence buffer.** Streamed reply text is spoken one sentence group at a time. The buffer is cut after its rightmost `.`, `!` or `?`. A chunk that leaves no terminal mark schedules a flush one second later.
- **Recognizer event handling.** Interim results start an utterance once. Final results pass on a transcript only when it holds an ASCII letter, then the pronunciation assessment when present. There is also the volume meter, the token-refresh timer, and `start`/`stop`.
- **Question service.** It draws a random text question by difficulty. It draws a random image question too, with per-session "used" marks. When one difficulty is exhausted, only that difficulty's marks are reset. It also lists the difficulties on offer.
- **`POST /api/chat`.** The configuration check comes first. Then the model context is built: a proficiency instruction, then a system prompt with the optional scenario, then the transcript. The reply streams back as its non-empty deltas.
- **`POST /api/suggestions`.** It builds a context with the roles swapped, plus a level-specific system prompt. A failure of any kind gives a fixed list of two suggestions.
- **`POST /api/grader/score-answer`.** It validates the request against its schema and builds the model's user message. It calls the model with a reply format whose bounds were removed by `removeUnsupportedProps`. The verdicts are applied in the source's order: jailbreak, empty reply, parse, re-validation.

How the model is set up:

- Each source file is one module, and every operation is a pure function over immutable records.
- The clock, `Math.random()`, the network, the speech SDK and the language model become parameters. Examples are a `nowMs`, a `rand` in [0, 1), a `FetchOutcome`, a `ModelReply` and a `JailbreakCheck`.
- JavaScript string behaviours the code relies on are written out in `text.dfy`:
  - `trim` over the ECMAScript white-space set;
  - `lastIndexOf` returning -1;
  - `includes` and `split('.')`;
  - string `length` in UTF-16 code units.
- Other JavaScript semantics are written out where they are used:
  - truthiness of settings and options, in `recognizer.dfy` and `chat_route.dfy`;
  - the `Set` iteration order, in `question_service.dfy`;
  - `Math.floor(Math.random() * n)`, in `question_service.dfy`.
- `common.dfy` holds `Option`, `Result` and a `Filter` with its algebra.

Some behaviour is modelled as the code does it, and it is worth knowing:

- **A failed fetch poisons the credential cache.** The cache keeps the rejected promise, so every later call rethrows that failure and no new fetch is ever issued (`Credential.FailedFetchIsNeverRetried`). A 2xx response whose body is not JSON fails in the same way (`Credential.MalformedBodyIsCachedAsFailure`). A 2xx response whose body is JSON `null` poisons it too, differently: the promise resolves to `null`, every caller's destructuring of it throws TypeError, and so does `credentialIsValid` on every later call, so no fetch is issued again (`Credential.NullCredentialIsNeverReplaced`).
- **A token whose expiry cannot be printed as a date makes the check throw.** An `exp` that coerces to NaN, such as a missing claim or a non-numeric string, never compares as expired. The check then logs the expiry with `new Date(exp * 1000).toISOString()`, and that throws RangeError. The same happens for an unexpired `exp * 1000` beyond the `Date` range of 8.64e15 ms. The argument is evaluated even when logging is off. `getAzureCredential` keeps such a credential cached and rethrows on every call, with no new fetch (`Credential.NaNExpiryIsNeverReplaced`). An `exp` of `null`, `false` or `""` coerces to 0 instead, and that token has expired.
- **The flush timer never speaks text that has no terminal mark.** A flush cuts after index -1, so it speaks nothing and keeps the whole buffer (`Synthesizer.FlushWithoutMarkKeepsBuffer`).
- **Every unterminated chunk schedules its own timer.** There is no de-duplication.
- **`stop` on the recognizer does not reset `speaking`.** So the first utterance after stopping mid-utterance reports no start (`Recognizer.StopMidUtteranceHidesNextStart`).
- **`start` without `stop` overwrites live handles.** They are counted as orphaned.
- **An unknown proficiency sends `undefined` content in the chat endpoint.** A CEFR code is matched exactly; a lower-case `"a1"` does not match.
- **In the suggestions endpoint, a parsed but empty list is answered as it is.** Only a missing list falls back.
- **The grading reply format sent to the model carries no bounds.** A grade above 5 is refused only by the local re-validation, with a 500.

## Model

| member | source | states |
|---|---|---|
| Credential.CredentialIsValid | src/lib/azure/credential.ts:30-50 | a non-string token or one without exactly two dots is invalid; it throws only for an undecodable payload or an expiry that is no date; validity implies a well-formed token whose expiry is a date |
| Credential.ThreeSegmentsIffTwoDots | src/lib/azure/credential.ts:36-37 | splitting on '.' gives three segments exactly when the token holds two dots |
| Credential.ValidIffNotExpired | src/lib/azure/credential.ts:42-49 | a token whose expiry is a date is valid iff `exp * 1000 >= now`; the boundary instant is still valid |
| Credential.UndatableExpiryThrows | src/lib/azure/credential.ts:42-49 | an expiry that is no date throws RangeError exactly while it is unexpired, and a NaN expiry always throws |
| Credential.UndecodablePayloadThrows | src/lib/azure/credential.ts:42 | a payload that cannot be decoded rejects the check rather than answering false |
| Credential.ValidityIsMonotone | src/lib/azure/credential.ts:43-46 | a token valid later was valid earlier, and one invalid earlier stays invalid later |
| Credential.FetchAzureCredential | src/lib/azure/credential.ts:20-28 | success exactly for a 2xx response whose body is JSON, resolving to `null` iff the body is `null` and otherwise to that body; a non-2xx response, a body that is not JSON and a network failure each fail with their own error |
| Credential.CacheOf | src/lib/azure/credential.ts:15-17 | the cache holds the fetched credential, a promise resolved to `null`, or the fetch's own rejection, each exactly when the fetch gave it |
| Credential.Delivered | src/lib/azure/speech/recognizer.ts:27 | a caller destructuring the awaited fetch gets the credential it resolved to, a TypeError for `null`, or the fetch's own error |
| Credential.GetAzureCredential | src/lib/azure/credential.ts:9-18 | a valid cached credential is returned with no fetch; a fetch happens exactly for an empty cache or an invalid credential; a cached failure is rethrown; a throwing check is rethrown with its own error and the cache kept; a cached `null` credential throws; a fetched `null` reaches the caller as a TypeError; a successful result is what is cached |
| Credential.FetchReplacesCache | src/lib/azure/credential.ts:15-17 | a call that fetched leaves exactly that fetch's outcome in the cache |
| Credential.CachedCredentialIsShared | src/lib/azure/credential.ts:10-13 | a credential handed out once is handed out again, unchanged and without a fetch, while it stays valid |
| Credential.FailedFetchIsNeverRetried | src/lib/azure/credential.ts:7-18 | after a failed fetch, any series of later calls keeps the failure cached and issues no fetch |
| Credential.NaNExpiryIsNeverReplaced | src/lib/azure/credential.ts:9-18 | a cached credential with a NaN expiry stays cached through any series of later calls, and no fetch is issued |
| Credential.MalformedBodyIsCachedAsFailure | src/lib/azure/credential.ts:15-27 | a 2xx response whose body does not read is cached as a failure, like any other failed fetch |
| Credential.NullBodyIsCached | src/lib/azure/credential.ts:9-31 | a 2xx response with a `null` body leaves the promise resolved to `null` in the cache and the caller receives a TypeError |
| Credential.NullCredentialIsNeverReplaced | src/lib/azure/credential.ts:9-31 | a cached `null` credential stays cached through any series of later calls, and no fetch is issued |
| Text.Trim | src/lib/azure/speech/synthesizer.ts:72 | the input is the result with only white space before and after it; the result has no white space at either end, is empty iff the input is all white space, and keeps a non-space last character |
| Text.LastIndexOf | src/lib/azure/speech/synthesizer.ts:67-71 | the rightmost index holding the character, -1 iff it is absent |
| Text.Split | src/lib/azure/credential.ts:36 | one more part than separators, no part holds the separator, and joining the parts gives the input back |
| Text.Utf16Length | src/routes/api/grader/score-answer/+server.ts:14 | a JavaScript length lies between the code-point count and twice it |
| Synthesizer.LastSentenceEnd | src/lib/azure/speech/synthesizer.ts:67-71 | the maximum of the three searches is the rightmost terminal mark, -1 iff there is none |
| Synthesizer.CutAfterLastMark | src/lib/azure/speech/synthesizer.ts:67-73 | the two slices put together are the buffer; the kept part has no terminal mark; the cut-off part is empty iff there is no mark, else it ends with one |
| Synthesizer.UtteranceOf | src/lib/azure/speech/synthesizer.ts:72-77 | nothing is spoken iff the cut-off text is all white space; otherwise its trim is spoken, ending in the terminal mark |
| Synthesizer.Synthesize | src/lib/azure/speech/synthesizer.ts:59-89 | the text cut off plus the text kept is always the old buffer plus the chunk; voice and engine are untouched |
| Synthesizer.UnterminatedChunkWaits | src/lib/azure/speech/synthesizer.ts:60-65 | with no terminal mark and no flush, nothing is spoken, all text stays buffered and a 1000 ms flush is scheduled |
| Synthesizer.TerminatedBufferIsSpoken | src/lib/azure/speech/synthesizer.ts:61-86 | with a terminal mark, no timer is set, the remainder has no mark, and a trimmed utterance ending in the rightmost mark is spoken |
| Synthesizer.NothingSpokenIffNoMark | src/lib/azure/speech/synthesizer.ts:61-77 | nothing is spoken exactly when the buffer has no terminal mark; a flush of such a buffer keeps it whole |
| Synthesizer.FlushWithoutMarkKeepsBuffer | src/lib/azure/speech/synthesizer.ts:63-77 | the timer's flush of an unterminated buffer speaks nothing and leaves the session unchanged |
| Synthesizer.Interrupt | src/lib/azure/speech/synthesizer.ts:43-57 | it succeeds iff a credential is obtained; then the buffer is empty, the voice is kept and a new open engine carries the new token |
| Synthesizer.InterruptFailed | src/lib/azure/speech/synthesizer.ts:43-48 | when the credential call throws, the engine is left closed and the buffer keeps its text |
| Synthesizer.InterruptWithCache | src/lib/azure/speech/synthesizer.ts:43-57 | the shared cache advances as one credential call; the engine ends open iff the call succeeded, and only then is the buffer emptied |
| Synthesizer.Stop | src/lib/azure/speech/synthesizer.ts:124-129 | the engine is closed, with buffer and voice kept |
| Synthesizer.SynthesizeAllConservesText | src/lib/azure/speech/synthesizer.ts:60-73 | over any series of chunks, everything cut off followed by the buffer is the first buffer followed by all chunks |
| Synthesizer.EveryUnterminatedChunkSchedulesATimer | src/lib/azure/speech/synthesizer.ts:60-65 | with no terminal mark anywhere, each chunk schedules its own timer and nothing is spoken |
| Synthesizer.SentenceSpokenOnceComplete | src/lib/azure/speech/synthesizer.ts:59-89 | "I think" then " it is great." speaks nothing, then "I think it is great.", leaving an empty buffer |
| Recognizer.DeriveEngineOptions | src/lib/azure/speech/recognizer.ts:44-84 | en-US with detailed output; the silence timeout is set iff it is truthy; assessment iff the callback is present; phrases iff the list is non-empty |
| Recognizer.IgnoredSettings | src/lib/azure/speech/recognizer.ts:50-84 | a zero timeout, an empty topic or phrase list, and a topic without the assessment callback give the same options as leaving them out |
| Recognizer.ValidTranscriptIffHasLetter | src/lib/azure/speech/recognizer.ts:104-107 | the three-part validity test is equivalent to holding an ASCII letter |
| Recognizer.OnEvent | src/lib/azure/speech/recognizer.ts:88-127 | recognition events touch only the speaking flag, never the engine, audio context, timer or handles |
| Recognizer.InterimResultStartsUtteranceOnce | src/lib/azure/speech/recognizer.ts:88-98 | a start is reported iff none was in progress, the partial text comes last, and speaking is set |
| Recognizer.FinalResultEndsUtterance | src/lib/azure/speech/recognizer.ts:100-123 | a final result always clears speaking and never reports a start |
| Recognizer.FinalTranscriptPassedOnIffValid | src/lib/azure/speech/recognizer.ts:104-121 | the transcript is passed on iff it holds an ASCII letter, and first; otherwise nothing is invoked |
| Recognizer.AssessmentFollowsValidTranscript | src/lib/azure/speech/recognizer.ts:107-114 | an assessment is passed on iff the transcript is valid and one exists, and only right after the transcript |
| Recognizer.BlankTranscriptIsDropped | src/lib/azure/speech/recognizer.ts:104-121 | an empty or white-space transcript invokes nothing |
| Recognizer.OtherReasonsAreIgnored | src/lib/azure/speech/recognizer.ts:88-127 | results of other reasons, no-match included, change nothing |
| Recognizer.AtMostOneStartPerUtterance | src/lib/azure/speech/recognizer.ts:88-127 | between final results at most one start fires, none if one was in progress, and speaking is set iff it was set or a start fired |
| Recognizer.Sum | src/lib/azure/speech/recognizer.ts:153-156 | the bin total is at most 255 per bin |
| Recognizer.UpdateVolume | src/lib/azure/speech/recognizer.ts:151-162 | the level lies in [0, 1] and, in exact arithmetic, scales back to the bin total; the meter reschedules iff an engine is set |
| Recognizer.VolumeExtremes | src/lib/azure/speech/recognizer.ts:151-158 | silent bins read 0 and saturated bins read 1 |
| Recognizer.RefreshToken | src/lib/azure/speech/recognizer.ts:139-146 | without an engine nothing happens; otherwise the cache advances and a new token is installed, or, on failure, the session is unchanged |
| Recognizer.RefreshedTokenIsCached | src/lib/azure/speech/recognizer.ts:139-146 | a token the refresh installs is the one the cache now holds, and a cache still valid installs its own token again |
| Recognizer.Start | src/lib/azure/speech/recognizer.ts:25-165 | it fails iff the credential or the microphone fails, leaving the session untouched and asking for no refresh timer; on success every handle is set with the derived options, speaking is kept and a refresh every 180 000 ms is asked for; restarting a live session orphans handles |
| Recognizer.Stop | src/lib/azure/speech/recognizer.ts:167-176 | the engine, audio context and refresh timer are released, each engine or context closed iff it was set; speaking is kept |
| Recognizer.StopIsIdempotent | src/lib/azure/speech/recognizer.ts:167-176 | a second stop changes nothing and closes nothing |
| Recognizer.StopMidUtteranceHidesNextStart | src/lib/azure/speech/recognizer.ts:167-176 | stopping mid-utterance and restarting hides the next utterance's start |
| QuestionService.RandomIndex | src/lib/types/questionService.ts:195 | `Math.floor(rand * n)` is a valid index |
| QuestionService.QuestionsOf | src/lib/types/questionService.ts:191-193 | exactly the bank's questions of the difficulty |
| QuestionService.ImagesOf | src/lib/types/questionService.ts:210-212 | exactly the bank's image questions of the difficulty |
| QuestionService.Unused | src/lib/types/questionService.ts:234 | exactly the questions whose id is not marked |
| QuestionService.GetRandomQuestion | src/lib/types/questionService.ts:190-196 | the pick is from the bank with the requested difficulty; `undefined` iff no question has it |
| QuestionService.NoHighIntermediateQuestion | src/lib/types/questionService.ts:4-45 | the shipped bank answers `undefined` to a high-intermediate request |
| QuestionService.NormalizeUrl | src/lib/types/questionService.ts:202-207 | the parameters are appended iff the URL names unsplash.com and has no query |
| QuestionService.NormalizeUrlIsIdempotent | src/lib/types/questionService.ts:204-205 | rewriting twice is rewriting once |
| QuestionService.NormalizeBank | src/lib/types/questionService.ts:202-207 | every question is rewritten in place, and the length is kept |
| QuestionService.NormalizeBankIsIdempotent | src/lib/types/questionService.ts:202-207 | repeated calls rewrite the bank only once |
| QuestionService.Fallback | src/lib/types/questionService.ts:215-231 | the placeholder has id "fallback" and the requested difficulty, or beginner |
| QuestionService.Candidates | src/lib/types/questionService.ts:210-212 | the difficulty's questions, or the whole bank when none is asked for |
| QuestionService.PickImage | src/lib/types/questionService.ts:233-267 | the pick is a candidate; an unused one when any exists, marking just it; otherwise the candidates' marks are cleared and the pick marked |
| QuestionService.GetRandomImageQuestion | src/lib/types/questionService.ts:199-270 | the bank is rewritten; the difficulty is respected; either the placeholder with the marks unchanged, or a bank question that is marked, with no other mark added |
| QuestionService.MissingDifficultyFallsBack | src/lib/types/questionService.ts:215-231 | a difficulty absent from the bank gives the placeholder and leaves the marks alone |
| QuestionService.ShippedBankHasNoBeginnerImage | src/lib/types/questionService.ts:48-62 | a beginner request on the shipped image bank gets the placeholder |
| QuestionService.UnusedQuestionIsPicked | src/lib/types/questionService.ts:263-267 | with an unused question of the difficulty, such a question is picked and exactly its id is added |
| QuestionService.ExhaustedDifficultyIsReset | src/lib/types/questionService.ts:242-261 | when all are used, only that difficulty's marks are cleared, other marks survive, and the pick is marked |
| QuestionService.ResetUsedImages | src/lib/types/questionService.ts:180-184 | no id stays marked; the bank is kept |
| QuestionService.PickAfterResetMarksOnlyThePick | src/lib/types/questionService.ts:180-184 | after a reset, a pick leaves exactly its own id marked |
| QuestionService.GetAvailableDifficulties | src/lib/types/questionService.ts:294-305 | each present difficulty exactly once, nothing else, in order of first appearance |
| QuestionService.ShippedDifficulties | src/lib/types/questionService.ts:294-305 | the shipped image bank offers only high-intermediate |
| Schema.RemoveUnsupportedProps | src/lib/server/utils/zod.ts:3-21 | same keys, no bound left; number and string fields become bare; object fields keep their keys; other kinds are kept as they were |
| Schema.StripIsUnconstrained | src/lib/server/utils/zod.ts:10-15 | stripping leaves no number or string bound at any depth of nested objects |
| Schema.StripFixesUnconstrained | src/lib/server/utils/zod.ts:8-19 | a schema without bounds is left unchanged |
| Schema.RemoveUnsupportedPropsIsIdempotent | src/lib/server/utils/zod.ts:3-21 | stripping twice is stripping once |
| Schema.StripOnlyLoosens | src/lib/server/utils/zod.ts:8-19 | every value the original schema accepts, the stripped one accepts |
| Schema.StrippedChecksShapeOnly | src/lib/server/utils/zod.ts:8-19 | the stripped schema accepts exactly the values of the right shape, bounds aside |
| Messages.Conversation | src/routes/api/chat/+server.ts:33-34 | exactly the non-scenario messages, never more than the transcript |
| Messages.ConversationOfAppend | src/routes/api/chat/+server.ts:33-34 | the filter keeps transcript order across any split |
| Messages.FirstBackground | src/routes/api/chat/+server.ts:40 | none iff no scenario message; otherwise the first one |
| Messages.History | src/routes/api/chat/+server.ts:35-38 | one entry per message, same content, the self role iff the user wrote it |
| Messages.Prepend | src/routes/api/chat/+server.ts:43-63 | the prompts come first, then the history, unchanged |
| Messages.ParseCefrIsExact | src/routes/api/chat/+server.ts:52-62 | a code is recognised only if it is exactly a level's code, and then it is that level |
| Messages.CodesAreParsed | src/routes/api/chat/+server.ts:52-59 | every level's code is recognised as that level |
| ChatRoute.Status | src/routes/api/chat/+server.ts:13-18 | 200 exactly for a stream |
| ChatRoute.ProficiencyPromptTable | src/routes/api/chat/+server.ts:52-63 | an instruction exists iff the code is a CEFR code, and it is that level's text |
| ChatRoute.ScenarioLine | src/routes/api/chat/+server.ts:40-47 | empty iff there is no scenario message; otherwise the first scenario's content under the heading |
| ChatRoute.SystemPrompt | src/routes/api/chat/+server.ts:43-49 | the prompt names the assistant right after its opening words and carries the scenario line after the introduction |
| ChatRoute.ChatContext | src/routes/api/chat/+server.ts:33-63 | the proficiency instruction as user, then a system prompt, then each conversation message in order, as user iff it is the user's own |
| ChatRoute.ContextPromptNamesAssistant | src/routes/api/chat/+server.ts:40-49 | the context's system message names the assistant and carries the scenario paragraph of the first scenario message |
| ChatRoute.HandleChat | src/routes/api/chat/+server.ts:12-103 | missing settings iff 400; a stream carries the built context and 250 tokens; with settings, a 500 exactly when the body is unreadable or the model refuses, and a stream otherwise |
| ChatRoute.ConfigurationIsCheckedFirst | src/routes/api/chat/+server.ts:13-18 | with missing settings the answer is 400 whatever the body and the model |
| ChatRoute.Enqueued | src/routes/api/chat/+server.ts:76-82 | only non-empty chunks, which spell out the whole reply |
| ChatRoute.EnqueuedOfAppend | src/routes/api/chat/+server.ts:76-82 | streaming two parts in turn writes their chunks in turn |
| ChatRoute.Pump | src/routes/api/chat/+server.ts:73-89 | the stream closes iff reading does not fail within the reply, and then carries the whole reply; otherwise it errors after the chunks read so far |
| ChatRoute.ErroredStreamIsPrefix | src/routes/api/chat/+server.ts:76-87 | an errored stream wrote a prefix of the complete stream |
| SuggestionsRoute.Proficiency | src/routes/api/suggestions/+server.ts:16 | the given level, or A1 when absent |
| SuggestionsRoute.ProficiencyGuidanceTable | src/routes/api/suggestions/+server.ts:81-98 | each CEFR code gets its level's guidance; every other code the default |
| SuggestionsRoute.GuidanceIsDistinct | src/routes/api/suggestions/+server.ts:83-96 | the six guidance texts differ from each other and from the default |
| SuggestionsRoute.SystemPrompt | src/routes/api/suggestions/+server.ts:34-54 | the prompt names the level right after its opening words and carries that level's guidance after the guidance heading |
| SuggestionsRoute.SuggestionsContext | src/routes/api/suggestions/+server.ts:26-54 | a system prompt first, then each conversation message in order, as assistant iff the learner wrote it |
| SuggestionsRoute.ContextPromptNamesLevel | src/routes/api/suggestions/+server.ts:16-54 | the context's system message names the requested level (A1 when absent) and carries that level's guidance |
| SuggestionsRoute.HistoryRolesAreSwapped | src/routes/api/suggestions/+server.ts:26-31 | the suggestions context has the chat context's history with every role swapped |
| SuggestionsRoute.HandleSuggestions | src/routes/api/suggestions/+server.ts:14-78 | the model is called iff the body was read; a present list, even empty, is answered as it is; any failure answers the two fallbacks |
| ScoreAnswer.ReadRequest | src/routes/api/grader/score-answer/+server.ts:11-19 | the answer, the question text and the image are the body's own values; the question and the image are present iff the body has them; a validated answer and question text are at most 1000 UTF-16 units, and an image is a URL within 1000 |
| ScoreAnswer.Untagged | src/routes/api/grader/score-answer/+server.ts:56-59 | the text recovered from a tagged string tags back to that string |
| ScoreAnswer.UntagTagged | src/routes/api/grader/score-answer/+server.ts:51-59 | untagging undoes tagging, so the model sees the text as sent |
| ScoreAnswer.ContentParts | src/routes/api/grader/score-answer/+server.ts:40-59 | one to three parts; the tagged answer last; an image first iff a non-empty image is given; the tagged question just before the answer iff there is a question |
| ScoreAnswer.ReadAnalysis | src/routes/api/grader/score-answer/+server.ts:21-27 | each field is the reply's own value; scores read from an accepted reply are within 0-100, the grade within 0-5 and the feedback within 4000 units |
| ScoreAnswer.HandleScoreAnswer | src/routes/api/grader/score-answer/+server.ts:29-106 | 200 iff scores are answered, and they are within bounds; scores are answered exactly for a valid request, no jailbreak and a non-empty reply that parses and passes the response schema, and they are that reply's analysis; the model is called iff the request validates, with that request's content, a 1000-token budget and the stripped response schema as format |
| ScoreAnswer.InvalidRequestNeverReachesModel | src/routes/api/grader/score-answer/+server.ts:32-35 | an invalid request is refused with 400 and nothing is sent |
| ScoreAnswer.JailbreakWinsOverReply | src/routes/api/grader/score-answer/+server.ts:88-91 | a jailbreak verdict gives the same 400 whatever the model replied |
| ScoreAnswer.EmptyReplyFails | src/routes/api/grader/score-answer/+server.ts:93-96 | an empty or missing reply is a 500 with its own message |
| ScoreAnswer.ValidReplyIsAnswered | src/routes/api/grader/score-answer/+server.ts:97-105 | a reply that parses and passes the response schema is answered with 200 and its analysis |
| ScoreAnswer.RejectedReplyFails | src/routes/api/grader/score-answer/+server.ts:99-103 | a reply that parses but fails the response schema is a 500 with its own message |
| ScoreAnswer.UnparsableReplyIsUncaught | src/routes/api/grader/score-answer/+server.ts:97 | a reply that is not JSON throws, which is an uncaught 500 |
| ScoreAnswer.SentFormatIsUnbounded | src/routes/api/grader/score-answer/+server.ts:61-86 | the reply format the handler sends to the model has the five fields with no bound at all |
| ScoreAnswer.OutOfRangeGradeIsCaughtLocally | src/routes/api/grader/score-answer/+server.ts:97-103 | a well-shaped reply with a grade above 5 passes the sent format but fails the local re-validation |

## Left out

- SDK objects, audio devices, the media stream, `requestAnimationFrame` and timers: they become state flags, emitted signals and returned timer requests. How a timer later fires is up to the caller (`Synthesizer.FlushTimerFires`).
- The synthesizer's voice choice in `create` is left out, because it is random and comes from the SDK's voice list. The same goes for `start` and its callbacks, which belong to the SDK: an utterance is the text handed to the engine.
- Promises and concurrency are left out, and so is the interleaving of concurrent `getAzureCredential` calls. Each call is one atomic step over the cache.
- The base64 and JSON decoding of the token payload is a parameter. The fractional part of `exp` is not modelled (`ExpClaim` holds whole seconds or NaN).
- `sessionStorage` persistence of the used-image marks, and its error paths, are left out. The marks are a set of ids that the state carries.
- `getRandomImageQuestion`'s catch-all fallback is left out, because nothing inside the `try` throws on the modelled inputs.
- Object key order, inherited `Object.prototype` keys in the record lookups, and a JSON `null` proficiency are not modelled. Requests are records with optional fields, and a body that cannot be destructured is `None`.
- `exampleAnswer`, `description` and `subquestions` are left out: no modelled operation reads them. The unused `sampleImageQuestionBank` is left out too.
- The wording of the long prompts is kept as constants without contracts about their meaning. The language model and the jailbreak detector are outcome parameters. So are `JSON.parse` of the model's reply and zod's URL test.
- The UTF-8 encoding of streamed chunks, response headers and `temperature` are left out.
- Recognizer.Stop: the microphone `MediaStream` opened by `start` is not modelled, and `stop` never stops its tracks, so the microphone stays open after a stop.
- Recognizer.OnEvent: the `JSON.parse(e.result.json)` in the log call of the final-result handler is not modelled. If the SDK's JSON were malformed, that call would throw before the letter test, no transcript would be passed on and `speaking` would stay set. The model assumes the SDK's JSON parses.
- ChatRoute.HandleChat: a thrown error anywhere between reading the body and creating the model stream is one `RequestFailed` answer (500). Which step threw is not distinguished.
- Recognizer.UpdateVolume: the average and the level are reals, not IEEE doubles. The [0, 1] bound holds for doubles too, but the scale-back to the bin total holds only in exact arithmetic, since `average / 255` rounds.
- ScoreAnswer.HandleScoreAnswer: a failed model call or jailbreak check is one `Uncaught` 500. The model call happens before the jailbreak verdict is awaited, which the `sent` field records.
- Schema.RemoveUnsupportedProps: zod kinds other than number, string and object stand as `Optional` and `Opaque`, with acceptance given by a parameter. An optional string keeps its bounds, as in the code.

=== FILE: chat_route.dfy ===
/**
 * The chat endpoint: it checks the service configuration, builds the
 * model's context from the transcript (a proficiency instruction, the
 * system prompt with the optional scenario, then the conversation) and
 * streams back the non-empty text deltas of the model's reply.
 */
module ChatRoute {
  import opened Common
  import opened Messages
  import Text

  /** The three settings the endpoint needs; an absent or empty one is missing. */
  datatype ChatEnv = ChatEnv(endpoint: Option<string>, apiKey: Option<string>, apiVersion: Option<string>)

  predicate Truthy(v: Option<string>) {
    v.Some? && v.value != ""
  }

  predicate Configured(env: ChatEnv) {
    Truthy(env.endpoint) && Truthy(env.apiKey) && Truthy(env.apiVersion)
  }

  /** The request body; `None` fields were absent from the JSON. */
  datatype ChatRequest = ChatRequest(messages: seq<Message>, proficiency: Option<string>, assistantName: Option<string>)

  const MaxResponseTokens: nat := 250

  /** The HTTP answer: 400 for missing settings, 500 for a failed request, otherwise a stream. */
  datatype ChatOutcome = MissingConfig | RequestFailed | Streaming(request: ModelRequest)

  function Status(outcome: ChatOutcome): (code: nat)
    ensures code == 200 <==> outcome.Streaming?
  {
    match outcome
    case MissingConfig => 400
    case RequestFailed => 500
    case Streaming(_) => 200
  }

  function LevelPrompt(level: Cefr): string {
    match level
    case A1 => "Generate responses at A1 (Beginner) level: very simple sentences, familiar names/words, top 1,000 words."
    case A2 => "Generate responses at A2 (Elementary) level: short, simple texts, predictable information, top 2,000 words."
    case B1 => "Generate responses at B1 (Intermediate) level: high-frequency everyday/job language, some idioms, top 5,000 words."
    case B2 => "Generate responses at B2 (Upper Intermediate) level: contemporary issues, more complex structures, top 10,000 words."
    case C1 => "Generate responses at C1 (Proficient) level: complex vocabulary and sentences, challenge the user, top 20,000 words."
    case C2 => "Generate responses at C2 (Advanced Proficient) level: highly complex, abstract, technical, or literary language."
  }

  /**
   * The proficiency instruction table looked up by the requested code; a
   * code outside the table (or none) gives `undefined`.
   */
  function ProficiencyPrompt(code: Option<string>): Option<string> {
    if code.None? then None
    else
      var level := ParseCefr(code.value);
      if level.Some? then Some(LevelPrompt(level.value)) else None
  }

  /** Each CEFR code gets its level's instruction; any other code, or none, gets `undefined`. */
  lemma ProficiencyPromptTable(code: Option<string>)
    ensures ProficiencyPrompt(code).Some? <==> exists level :: code == Some(Code(level))
    ensures forall level :: code == Some(Code(level)) ==> ProficiencyPrompt(code) == Some(LevelPrompt(level))
  {
    CodesAreParsed();
    if code.Some? {
      ParseCefrIsExact(code.value);
    }
  }

  /** A template literal prints an absent value as `undefined`. */
  function Interpolate(v: Option<string>): string {
    if v.Some? then v.value else "undefined"
  }

  const IntroductionHead: string := "You are an English-speaking assistant from CoolEnglish named "

  const IntroductionTail: string :=
    ", designed to help users practice spoken English in a fun and interactive way. "
    + "Your primary goal is to create natural, engaging conversations based on real-life scenarios, "
    + "encouraging users to actively participate and improve their oral communication skills."

  const Guidelines: string :=
    "\n\n**Guidelines:**"
    + "\n- Stay scenario-focused."
    + "\n- Be encouraging and friendly."
    + "\n- Use proficiency-appropriate vocabulary and sentence structures."
    + "\n- Keep it concise and clear."
    + "\n- Encourage elaboration and provide suggestions."
    + "\n- Avoid unrelated topics."
    + "\n- Only generate the next reply for the assistant, do not simulate the user's lines or generate multiple turns."
    + "\n- Only output the assistant's next message, in natural, level-appropriate English."
    + "\n- Example: \"That sounds exciting! What would you do next in this situation?\""
    + "\n- Example: \"Good job! Can you explain why you made that choice?\""
    + "\n- Example: \"Interesting! Let’s try this: how would you ask for help politely in a store?\""
    + "\n- Example: \"Great effort! Can you describe the taste of the food you mentioned?\""
    + "\n- Keep the conversation engaging, realistic, and fun."

  const ScenarioHeading: string := "\n\n**Scenario:** "

  /** The scenario paragraph: present exactly when the transcript has a scenario message, taken from the first one. */
  function ScenarioLine(messages: seq<Message>): (r: string)
    ensures r == "" <==> forall m :: m in messages ==> !IsBackground(m)
    ensures r != "" ==> exists i :: FirstBackgroundAt(messages, i) && r == ScenarioHeading + messages[i].content
  {
    var background := FirstBackground(messages);
    if background.Some? then ScenarioHeading + background.value.content else ""
  }

  /** The system prompt: the introduction naming the assistant, then the scenario paragraph, then the guidelines. */
  function SystemPrompt(assistantName: string, messages: seq<Message>): (r: string)
    ensures Text.InfixAt(r, assistantName, |IntroductionHead|)
    ensures Text.InfixAt(r, ScenarioLine(messages), |IntroductionHead| + |assistantName| + |IntroductionTail|)
  {
    var scenario := ScenarioLine(messages);
    Text.InfixesOfFive(IntroductionHead, assistantName, IntroductionTail, scenario, Guidelines);
    IntroductionHead + assistantName + IntroductionTail + scenario + Guidelines
  }

  /**
   * The model's context: the proficiency instruction as a user message,
   * then the system prompt, then one entry per non-scenario message in
   * transcript order, the user's own messages as `user` and the others as
   * `assistant`.
   */
  function ChatContext(req: ChatRequest): (r: seq<ContextMessage>)
    ensures |r| == |Conversation(req.messages)| + 2
    ensures r[0].role == User && r[0].content == ProficiencyPrompt(req.proficiency)
    ensures r[1].role == System && r[1].content.Some?
    ensures forall i :: 2 <= i < |r| ==>
      var m := Conversation(req.messages)[i - 2];
      r[i].content == Some(m.content) && (r[i].role == User <==> m.self)
  {
    Prepend([ContextMessage(User, ProficiencyPrompt(req.proficiency)),
             ContextMessage(System, Some(SystemPrompt(Interpolate(req.assistantName), req.messages)))],
            History(Conversation(req.messages), User, Assistant))
  }

  /**
   * The system message of the context names the assistant (the text
   * `undefined` when no name was given, as the template literal prints it)
   * and carries the scenario paragraph after the introduction.
   */
  lemma ContextPromptNamesAssistant(req: ChatRequest)
    ensures var r := ChatContext(req); var name := Interpolate(req.assistantName);
      && Text.InfixAt(r[1].content.value, name, |IntroductionHead|)
      && Text.InfixAt(r[1].content.value, ScenarioLine(req.messages), |IntroductionHead| + |name| + |IntroductionTail|)
  {
  }

  /**
   * `POST /api/chat`. The configuration is checked before the body is read;
   * an unreadable body or a refused model call fails with 500.
   */
  function HandleChat(env: ChatEnv, body: Option<ChatRequest>, modelAccepts: bool): (r: ChatOutcome)
    ensures !Configured(env) <==> r == MissingConfig
    ensures r == RequestFailed <==> Configured(env) && (body.None? || !modelAccepts)
    ensures r.Streaming? ==> body.Some? && r.request == ModelRequest(ChatContext(body.value), MaxResponseTokens)
    ensures Configured(env) && body.Some? && modelAccepts ==> r.Streaming?
  {
    if !Configured(env) then MissingConfig
    else if body.None? || !modelAccepts then RequestFailed
    else Streaming(ModelRequest(ChatContext(body.value), MaxResponseTokens))
  }

  /** Whatever the body and the model, missing settings give the same 400 answer. */
  lemma ConfigurationIsCheckedFirst(env: ChatEnv, b1: Option<ChatRequest>, b2: Option<ChatRequest>, ok1: bool, ok2: bool)
    requires !Configured(env)
    ensures HandleChat(env, b1, ok1) == HandleChat(env, b2, ok2)
    ensures Status(HandleChat(env, b1, ok1)) == 400
  {
  }

  /** The text of one streamed delta: `chunk.choices[0]?.delta?.content`, absent as `None`. */
  function TextOf(delta: Option<string>): string {
    if delta.Some? then delta.value else ""
  }

  function ReplyText(deltas: seq<Option<string>>): string
    decreases |deltas|
  {
    if |deltas| == 0 then [] else ReplyText(deltas[..|deltas| - 1]) + TextOf(deltas[|deltas| - 1])
  }

  /**
   * The chunks written to the response stream: only non-empty contents,
   * in arrival order. Nothing of the reply is lost: the chunks spell out
   * the whole reply text.
   */
  function Enqueued(deltas: seq<Option<string>>): (r: seq<string>)
    ensures |r| <= |deltas|
    ensures forall i :: 0 <= i < |r| ==> r[i] != ""
    ensures Concat(r) == ReplyText(deltas)
    decreases |deltas|
  {
    if |deltas| == 0 then []
    else
      var front := Enqueued(deltas[..|deltas| - 1]);
      var text := TextOf(deltas[|deltas| - 1]);
      if text != "" then
        assert (front + [text])[..|front|] == front;
        front + [text]
      else
        assert ReplyText(deltas) == ReplyText(deltas[..|deltas| - 1]) + [];
        front
  }

  /** Streaming two parts of the reply one after the other streams their chunks one after the other. */
  lemma {:induction false} EnqueuedOfAppend(a: seq<Option<string>>, b: seq<Option<string>>)
    ensures Enqueued(a + b) == Enqueued(a) + Enqueued(b)
    decreases |b|
  {
    if |b| == 0 {
      assert a + b == a;
    } else {
      var front := b[..|b| - 1];
      assert (a + b)[..|a + b| - 1] == a + front;
      assert (a + b)[|a + b| - 1] == b[|b| - 1];
      EnqueuedOfAppend(a, front);
    }
  }

  /** How the stream ends: closed after the last delta, or errored when reading the model's stream failed. */
  datatype StreamEnd = Closed | Errored

  /**
   * The response stream when reading the model's reply fails after
   * `failsAfter` deltas (or never): the chunks read so far are written, then
   * the stream errors instead of closing.
   */
  function Pump(deltas: seq<Option<string>>, failsAfter: Option<nat>): (r: (seq<string>, StreamEnd))
    ensures r.1 == Closed <==> failsAfter.None? || failsAfter.value > |deltas|
    ensures r.1 == Closed ==> Concat(r.0) == ReplyText(deltas)
    ensures r.1 == Errored ==> r.0 == Enqueued(deltas[..failsAfter.value])
  {
    if failsAfter.Some? && failsAfter.value <= |deltas| then (Enqueued(deltas[..failsAfter.value]), Errored)
    else (Enqueued(deltas), Closed)
  }

  /** An errored stream has written a prefix of what the complete stream writes. */
  lemma ErroredStreamIsPrefix(deltas: seq<Option<string>>, k: nat)
    requires k <= |deltas|
    ensures var full := Pump(deltas, None).0;
      var partial := Pump(deltas, Some(k)).0;
      |partial| <= |full| && full[..|partial|] == partial
  {
    assert deltas == deltas[..k] + deltas[k..];
    EnqueuedOfAppend(deltas[..k], deltas[k..]);
  }
}

=== FILE: common.dfy ===
/** Failure-carrying wrappers shared by every module of the model. */
module Common {

  /** A value that may be absent: JavaScript's `undefined`/`null`. */
  datatype Option<+T> = None | Some(value: T)

  /** The outcome of an operation that may throw: `Err` carries the thrown error. */
  datatype Result<+T, +E> = Ok(value: T) | Err(error: E)

  /** `xs.filter(keep)`: the kept elements, in their original order. */
  function Filter<T(!new)>(xs: seq<T>, keep: T -> bool): (r: seq<T>)
    ensures |r| <= |xs|
    ensures forall x :: x in r <==> x in xs && keep(x)
    decreases |xs|
  {
    if |xs| == 0 then []
    else
      var front := Filter(xs[..|xs| - 1], keep);
      var last := xs[|xs| - 1];
      assert forall x :: x in xs <==> x in xs[..|xs| - 1] || x == last;
      if keep(last) then front + [last] else front
  }

  /** Filtering distributes over appending one element. */
  lemma FilterSnoc<T(!new)>(xs: seq<T>, x: T, keep: T -> bool)
    ensures Filter(xs + [x], keep) == Filter(xs, keep) + (if keep(x) then [x] else [])
  {
    assert (xs + [x])[..|xs|] == xs;
  }

  /** Filtering distributes over concatenation, so kept elements stay in their relative order. */
  lemma {:induction false} FilterAppend<T(!new)>(xs: seq<T>, ys: seq<T>, keep: T -> bool)
    ensures Filter(xs + ys, keep) == Filter(xs, keep) + Filter(ys, keep)
    decreases |ys|
  {
    if |ys| > 0 {
      var front := ys[..|ys| - 1];
      var last := ys[|ys| - 1];
      assert ys == front + [last];
      assert xs + ys == (xs + front) + [last];
      FilterAppend(xs, front, keep);
      FilterSnoc(xs + front, last, keep);
      FilterSnoc(front, last, keep);
    } else {
      assert xs + ys == xs;
    }
  }

  /** The parts joined end to end, in order: `parts.join('')`. */
  function Concat(parts: seq<string>): string
    decreases |parts|
  {
    if |parts| == 0 then [] else Concat(parts[..|parts| - 1]) + parts[|parts| - 1]
  }

  lemma ConcatSnoc(parts: seq<string>, p: string)
    ensures Concat(parts + [p]) == Concat(parts) + p
  {
    assert (parts + [p])[..|parts|] == parts;
  }
}

=== FILE: credential.dfy ===
/**
 * The process-wide credential cache of the speech services.
 *
 * `getAzureCredential` keeps the last issued credential (or the failure of the
 * last issuing call) and reuses it while the token's `exp` claim lies in the
 * future and prints as a date. The clock, the issuing endpoint's response and the base64/JSON
 * decoding of the token payload are parameters.
 */
module Credential {
  import opened Common
  import Text

  /** The `token` field as received; only a JavaScript string can be valid. */
  datatype TokenValue = TokenString(text: string) | NotAString

  datatype AzureCredential = AzureCredential(token: TokenValue, region: string)

  /**
   * The payload's `exp` after JavaScript's numeric coercion in `exp * 1000`:
   * whole seconds since the epoch, or NaN when it coerces to NaN (a missing
   * claim, an object, a non-numeric string). `null`, `false` and `""`
   * coerce to 0 and so are `Seconds(0)`. A NaN claim is never expired, but
   * it cannot be printed as a date either, so the check throws on it.
   */
  datatype ExpClaim = Seconds(exp: int) | NaN

  /** Decoding of the payload segment (`atob` then `JSON.parse`); `None` is a thrown error. */
  type PayloadDecoder = string -> Option<ExpClaim>

  datatype CredError =
    | MalformedPayload  // `atob` or `JSON.parse` threw on the payload segment
    | FetchNotOk        // the issuing endpoint answered with a non-2xx status
    | NetworkFailure    // `fetch` itself rejected
    | MalformedBody     // `res.json()` rejected on a 2xx response
    | InvalidExpiry     // `toISOString` threw RangeError on an unexpired claim that is no date
    | NullCredential    // destructuring a credential that is `null` threw TypeError

  /** The cached promise: nothing yet, a resolved credential, one resolved to `null`, or a rejected fetch. */
  datatype Cache = Empty | Resolved(cred: AzureCredential) | ResolvedNull | Rejected(error: CredError)

  /**
   * What `res.json()` gives: a rejection (the body is not JSON), `null`, or
   * an object read as a credential.
   */
  datatype ResponseBody = NotJson | JsonNull | JsonCredential(cred: AzureCredential)

  /** What the single request to the issuing endpoint produced. */
  datatype FetchOutcome = NetworkError | Response(ok: bool, body: ResponseBody)

  /** The token split on '.' has three segments (header, payload, signature) exactly when it holds two dots. */
  lemma ThreeSegmentsIffTwoDots(t: string)
    ensures |Text.Split(t, '.')| == 3 <==> Text.Count(t, '.') == 2
  {
  }

  /** `exp * 1000 < now`, with NaN comparing false. */
  predicate Expired(claim: ExpClaim, nowMs: int) {
    claim.Seconds? && claim.exp * 1000 < nowMs
  }

  /** The largest distance from the epoch, in milliseconds, that a JavaScript `Date` can hold. */
  const MaxTimeMs: int := 8_640_000_000_000_000

  /** `new Date(exp * 1000).toISOString()` returns a string rather than throwing RangeError. */
  predicate IsDate(claim: ExpClaim) {
    claim.Seconds? && -MaxTimeMs <= claim.exp * 1000 <= MaxTimeMs
  }

  /**
   * `credentialIsValid`: false for a non-string token or one that does not
   * split into three segments; throws when the payload cannot be decoded;
   * false for an expired token. An unexpired token is valid when its expiry
   * prints as a date; otherwise the log call that prints it throws.
   */
  function CredentialIsValid(cred: AzureCredential, nowMs: int, decode: PayloadDecoder): (r: Result<bool, CredError>)
    ensures cred.token.NotAString? ==> r == Ok(false)
    ensures cred.token.TokenString? && Text.Count(cred.token.text, '.') != 2 ==> r == Ok(false)
    ensures r.Err? ==> r.error == MalformedPayload || r.error == InvalidExpiry
    ensures r == Ok(true) ==> cred.token.TokenString? && Text.Count(cred.token.text, '.') == 2
    ensures r == Ok(true) ==> var claim := ClaimOf(cred, decode); claim.Some? && IsDate(claim.value)
  {
    match cred.token
    case NotAString => Ok(false)
    case TokenString(t) =>
      var segments := Text.Split(t, '.');
      if |segments| != 3 then Ok(false)
      else
        match decode(segments[1])
        case None => Err(MalformedPayload)
        case Some(claim) =>
          if Expired(claim, nowMs) then Ok(false)
          else if IsDate(claim) then Ok(true)
          else Err(InvalidExpiry)
  }

  /** The claim the validity check reads from a well-formed token, if it decodes. */
  function ClaimOf(cred: AzureCredential, decode: PayloadDecoder): Option<ExpClaim>
    requires cred.token.TokenString?
    requires Text.Count(cred.token.text, '.') == 2
  {
    decode(Text.Split(cred.token.text, '.')[1])
  }

  /**
   * A three-segment token whose expiry is a date is valid iff
   * `exp * 1000 >= now`; equality counts as valid.
   */
  lemma ValidIffNotExpired(cred: AzureCredential, nowMs: int, decode: PayloadDecoder)
    requires cred.token.TokenString? && Text.Count(cred.token.text, '.') == 2
    requires ClaimOf(cred, decode).Some? && IsDate(ClaimOf(cred, decode).value)
    ensures CredentialIsValid(cred, nowMs, decode) == Ok(ClaimOf(cred, decode).value.exp * 1000 >= nowMs)
  {
  }

  /**
   * An expiry that is no date makes the check throw whenever it is not
   * expired: always for NaN, which never compares as expired, and for a
   * claim beyond the `Date` range until the clock passes it.
   */
  lemma UndatableExpiryThrows(cred: AzureCredential, nowMs: int, decode: PayloadDecoder)
    requires cred.token.TokenString? && Text.Count(cred.token.text, '.') == 2
    requires ClaimOf(cred, decode).Some? && !IsDate(ClaimOf(cred, decode).value)
    ensures CredentialIsValid(cred, nowMs, decode).Err? <==> !Expired(ClaimOf(cred, decode).value, nowMs)
    ensures CredentialIsValid(cred, nowMs, decode).Err? ==> CredentialIsValid(cred, nowMs, decode).error == InvalidExpiry
    ensures ClaimOf(cred, decode).value.NaN? ==> CredentialIsValid(cred, nowMs, decode) == Err(InvalidExpiry)
  {
  }

  /** An undecodable payload makes the check throw instead of answering false. */
  lemma UndecodablePayloadThrows(cred: AzureCredential, nowMs: int, decode: PayloadDecoder)
    requires cred.token.TokenString? && Text.Count(cred.token.text, '.') == 2
    requires ClaimOf(cred, decode).None?
    ensures CredentialIsValid(cred, nowMs, decode) == Err(MalformedPayload)
  {
  }

  /** Validity only runs out: valid now means valid at every earlier time, invalid now means invalid later. */
  lemma ValidityIsMonotone(cred: AzureCredential, earlier: int, later: int, decode: PayloadDecoder)
    requires earlier <= later
    ensures CredentialIsValid(cred, later, decode) == Ok(true) ==> CredentialIsValid(cred, earlier, decode) == Ok(true)
    ensures CredentialIsValid(cred, earlier, decode) == Ok(false) ==> CredentialIsValid(cred, later, decode) == Ok(false)
  {
  }

  /**
   * `fetchAzureCredential`: the parsed body of a 2xx response, otherwise an
   * error and no retry. The status is checked before the body is read. A
   * JSON `null` body resolves the promise: `Ok(None)`.
   */
  function FetchAzureCredential(outcome: FetchOutcome): (r: Result<Option<AzureCredential>, CredError>)
    ensures r.Ok? <==> outcome.Response? && outcome.ok && !outcome.body.NotJson?
    ensures r == Ok(None) <==> outcome == Response(true, JsonNull)
    ensures r.Ok? && r.value.Some? ==> outcome.body == JsonCredential(r.value.value)
    ensures outcome.Response? && !outcome.ok ==> r == Err(FetchNotOk)
    ensures outcome.Response? && outcome.ok && outcome.body.NotJson? ==> r == Err(MalformedBody)
    ensures outcome.NetworkError? ==> r == Err(NetworkFailure)
  {
    match outcome
    case NetworkError => Err(NetworkFailure)
    case Response(ok, body) =>
      if !ok then Err(FetchNotOk)
      else
        match body
        case NotJson => Err(MalformedBody)
        case JsonNull => Ok(None)
        case JsonCredential(cred) => Ok(Some(cred))
  }

  /**
   * One call of `getAzureCredential`: the cache afterwards, what the caller
   * receives, and whether a fetch was issued. Every caller destructures the
   * credential at once (`const { token } = await getAzureCredential()`), so
   * a `null` credential reaches it as `Err(NullCredential)`.
   */
  datatype CacheStep = CacheStep(cache: Cache, result: Result<AzureCredential, CredError>, fetched: bool)

  /** The promise a fetch leaves in the cache. */
  function CacheOf(r: Result<Option<AzureCredential>, CredError>): (cache: Cache)
    ensures cache.Resolved? <==> r.Ok? && r.value.Some?
    ensures cache.Resolved? ==> r == Ok(Some(cache.cred))
    ensures cache.ResolvedNull? <==> r == Ok(None)
    ensures cache.Rejected? <==> r.Err?
    ensures cache.Rejected? ==> r == Err(cache.error)
  {
    match r
    case Ok(Some(c)) => Resolved(c)
    case Ok(None) => ResolvedNull
    case Err(e) => Rejected(e)
  }

  /** What a caller's destructuring of an awaited fetch obtains. */
  function Delivered(r: Result<Option<AzureCredential>, CredError>): (d: Result<AzureCredential, CredError>)
    ensures d.Ok? <==> r.Ok? && r.value.Some?
    ensures d.Ok? ==> r == Ok(Some(d.value))
    ensures r == Ok(None) ==> d == Err(NullCredential)
    ensures r.Err? ==> d == Err(r.error)
  {
    match r
    case Ok(Some(c)) => Ok(c)
    case Ok(None) => Err(NullCredential)
    case Err(e) => Err(e)
  }

  /** Whether the cached value is reused: only a resolved credential that checks valid. */
  predicate ReusesCache(cache: Cache, nowMs: int, decode: PayloadDecoder) {
    cache.Resolved? && CredentialIsValid(cache.cred, nowMs, decode) == Ok(true)
  }

  /**
   * `getAzureCredential`. Awaiting the cached promise rethrows a cached
   * failure; a cached credential is checked (which may throw, and for a
   * `null` one always throws TypeError at the destructuring of
   * `credentialIsValid`); a valid one is returned as is; in every other case
   * the cache is replaced by a new fetch.
   */
  function GetAzureCredential(cache: Cache, nowMs: int, decode: PayloadDecoder, outcome: FetchOutcome): (s: CacheStep)
    ensures ReusesCache(cache, nowMs, decode) ==> s == CacheStep(cache, Ok(cache.cred), false)
    ensures s.fetched <==> cache.Empty? || (cache.Resolved? && CredentialIsValid(cache.cred, nowMs, decode) == Ok(false))
    ensures s.fetched ==> s.result == Delivered(FetchAzureCredential(outcome))
    ensures !s.fetched ==> s.cache == cache
    ensures s.result.Ok? ==> s.cache == Resolved(s.result.value)
    ensures cache.Rejected? ==> s.result == Err(cache.error)
    ensures cache.ResolvedNull? ==> s.result == Err(NullCredential)
    ensures cache.Resolved? && CredentialIsValid(cache.cred, nowMs, decode).Err? ==>
      s.result == Err(CredentialIsValid(cache.cred, nowMs, decode).error)
  {
    match cache
    case Rejected(e) => CacheStep(cache, Err(e), false)
    case ResolvedNull => CacheStep(cache, Err(NullCredential), false)
    case Resolved(c) =>
      (match CredentialIsValid(c, nowMs, decode)
       case Err(e) => CacheStep(cache, Err(e), false)
       case Ok(valid) =>
         if valid then CacheStep(cache, Ok(c), false)
         else
           var r := FetchAzureCredential(outcome);
           CacheStep(CacheOf(r), Delivered(r), true))
    case Empty =>
      var r := FetchAzureCredential(outcome);
      CacheStep(CacheOf(r), Delivered(r), true)
  }

  /** An ok response whose body is not JSON is cached as a failure, just like a refused request. */
  lemma MalformedBodyIsCachedAsFailure(nowMs: int, decode: PayloadDecoder)
    ensures GetAzureCredential(Empty, nowMs, decode, Response(true, NotJson)) == CacheStep(Rejected(MalformedBody), Err(MalformedBody), true)
  {
  }

  /**
   * An ok response whose body is JSON `null` resolves the cached promise to
   * `null`: the caller's destructuring throws, and the cache keeps the
   * resolved promise.
   */
  lemma NullBodyIsCached(nowMs: int, decode: PayloadDecoder)
    ensures GetAzureCredential(Empty, nowMs, decode, Response(true, JsonNull)) == CacheStep(ResolvedNull, Err(NullCredential), true)
  {
  }

  /** A call that issued a fetch caches exactly that fetch's outcome. */
  lemma FetchReplacesCache(cache: Cache, nowMs: int, decode: PayloadDecoder, outcome: FetchOutcome)
    requires GetAzureCredential(cache, nowMs, decode, outcome).fetched
    ensures GetAzureCredential(cache, nowMs, decode, outcome).cache == CacheOf(FetchAzureCredential(outcome))
  {
  }

  /**
   * A credential handed out by one call is handed out again, with no fetch,
   * by a later call while it stays valid.
   */
  lemma CachedCredentialIsShared(cache: Cache, now1: int, now2: int, decode: PayloadDecoder, o1: FetchOutcome, o2: FetchOutcome)
    requires GetAzureCredential(cache, now1, decode, o1).result.Ok?
    requires var c := GetAzureCredential(cache, now1, decode, o1).result.value;
      CredentialIsValid(c, now2, decode) == Ok(true)
    ensures var first := GetAzureCredential(cache, now1, decode, o1);
      GetAzureCredential(first.cache, now2, decode, o2) == CacheStep(first.cache, first.result, false)
  {
  }

  /** The clock readings and issuing responses of a series of calls. */
  datatype Call = Call(nowMs: int, outcome: FetchOutcome)

  /** Replays a series of calls against the cache; returns the final cache and the number of fetches issued. */
  function RunCalls(cache: Cache, calls: seq<Call>, decode: PayloadDecoder): (Cache, nat)
    decreases |calls|
  {
    if |calls| == 0 then (cache, 0)
    else
      var s := GetAzureCredential(cache, calls[0].nowMs, decode, calls[0].outcome);
      var (last, fetches) := RunCalls(s.cache, calls[1..], decode);
      (last, fetches + (if s.fetched then 1 else 0))
  }

  /**
   * Once a fetch has failed, the rejected promise stays cached: every later
   * call fails with the same error and no further fetch is ever issued,
   * whatever the clock and the endpoint would say.
   */
  lemma {:induction false} FailedFetchIsNeverRetried(e: CredError, calls: seq<Call>, decode: PayloadDecoder)
    ensures RunCalls(Rejected(e), calls, decode) == (Rejected(e), 0)
    decreases |calls|
  {
    if |calls| > 0 {
      FailedFetchIsNeverRetried(e, calls[1..], decode);
    }
  }

  /**
   * A cached credential whose expiry is NaN is never replaced: every later
   * call rethrows from the validity check, keeps the cache and issues no
   * fetch, whatever the clock and the endpoint would say.
   */
  lemma {:induction false} NaNExpiryIsNeverReplaced(c: AzureCredential, calls: seq<Call>, decode: PayloadDecoder)
    requires c.token.TokenString? && Text.Count(c.token.text, '.') == 2
    requires ClaimOf(c, decode) == Some(NaN)
    ensures RunCalls(Resolved(c), calls, decode) == (Resolved(c), 0)
    decreases |calls|
  {
    if |calls| > 0 {
      UndatableExpiryThrows(c, calls[0].nowMs, decode);
      NaNExpiryIsNeverReplaced(c, calls[1..], decode);
    }
  }

  /**
   * A cached `null` credential is never replaced: every later call throws
   * TypeError in `credentialIsValid`, keeps the cache and issues no fetch.
   */
  lemma {:induction false} NullCredentialIsNeverReplaced(calls: seq<Call>, decode: PayloadDecoder)
    ensures RunCalls(ResolvedNull, calls, decode) == (ResolvedNull, 0)
    decreases |calls|
  {
    if |calls| > 0 {
      NullCredentialIsNeverReplaced(calls[1..], decode);
    }
  }
}

=== FILE: messages.dfy ===
/**
 * The chat transcript shared by the chat and suggestions routes. A message
 * named `Background` carries the role-play scenario and is never part of
 * the conversation history sent to the model.
 */
module Messages {
  import opened Common

  /** A transcript entry; an absent `self` flag is false. */
  datatype Message = Message(name: string, content: string, self: bool)

  datatype Role = System | User | Assistant

  /** A message of the model's context; `content` is `undefined` when a table lookup misses. */
  datatype ContextMessage = ContextMessage(role: Role, content: Option<string>)

  const BackgroundName: string := "Background"

  predicate IsBackground(m: Message) {
    m.name == BackgroundName
  }

  /** The transcript without its scenario messages. */
  function Conversation(messages: seq<Message>): (r: seq<Message>)
    ensures |r| <= |messages|
    ensures forall m :: m in r <==> m in messages && !IsBackground(m)
  {
    Filter(messages, (m: Message) => !IsBackground(m))
  }

  /** Dropping scenario messages keeps the others in their relative order. */
  lemma ConversationOfAppend(a: seq<Message>, b: seq<Message>)
    ensures Conversation(a + b) == Conversation(a) + Conversation(b)
  {
    FilterAppend(a, b, (m: Message) => !IsBackground(m));
  }

  /** Position `i` holds the first scenario message. */
  predicate FirstBackgroundAt(messages: seq<Message>, i: int) {
    0 <= i < |messages| && IsBackground(messages[i]) && forall j :: 0 <= j < i ==> !IsBackground(messages[j])
  }

  /** `messages.find(m => m.name === 'Background')`. */
  function FirstBackground(messages: seq<Message>): (r: Option<Message>)
    ensures r.None? <==> forall m :: m in messages ==> !IsBackground(m)
    ensures r.Some? ==> exists i :: FirstBackgroundAt(messages, i) && messages[i] == r.value
    decreases |messages|
  {
    if |messages| == 0 then None
    else if IsBackground(messages[0]) then Some(messages[0])
    else
      var rest := FirstBackground(messages[1..]);
      assert forall m :: m in messages <==> m == messages[0] || m in messages[1..];
      if rest.Some? then
        ghost var i :| FirstBackgroundAt(messages[1..], i) && messages[1..][i] == rest.value;
        assert FirstBackgroundAt(messages, i + 1);
        rest
      else rest
  }

  /** The history entries of a context, one per conversation message, roles given by the `self` flag. */
  function History(conversation: seq<Message>, selfRole: Role, otherRole: Role): (r: seq<ContextMessage>)
    ensures |r| == |conversation|
    ensures forall i :: 0 <= i < |r| ==>
      r[i] == ContextMessage(if conversation[i].self then selfRole else otherRole, Some(conversation[i].content))
  {
    seq(|conversation|, i requires 0 <= i < |conversation| =>
      ContextMessage(if conversation[i].self then selfRole else otherRole, Some(conversation[i].content)))
  }

  /** Fixed prompts placed ahead of the history (`unshift`). */
  function Prepend(prompts: seq<ContextMessage>, history: seq<ContextMessage>): (r: seq<ContextMessage>)
    ensures |r| == |prompts| + |history|
    ensures r[..|prompts|] == prompts && r[|prompts|..] == history
  {
    prompts + history
  }

  /** What is sent to the model: the context and the reply's token budget. */
  datatype ModelRequest = ModelRequest(context: seq<ContextMessage>, maxTokens: nat)

  /** The six levels of the Common European Framework of Reference for Languages. */
  datatype Cefr = A1 | A2 | B1 | B2 | C1 | C2

  function Code(level: Cefr): string {
    match level
    case A1 => "A1"
    case A2 => "A2"
    case B1 => "B1"
    case B2 => "B2"
    case C1 => "C1"
    case C2 => "C2"
  }

  /** The level a requested code names, if any (the code compared character by character). */
  function ParseCefr(code: string): Option<Cefr> {
    if |code| != 2 then None
    else if code[0] == 'A' && code[1] == '1' then Some(A1)
    else if code[0] == 'A' && code[1] == '2' then Some(A2)
    else if code[0] == 'B' && code[1] == '1' then Some(B1)
    else if code[0] == 'B' && code[1] == '2' then Some(B2)
    else if code[0] == 'C' && code[1] == '1' then Some(C1)
    else if code[0] == 'C' && code[1] == '2' then Some(C2)
    else None
  }

  /** Parsing recognises exactly the six codes, each as its own level. */
  lemma ParseCefrIsExact(code: string)
    ensures ParseCefr(code).Some? ==> Code(ParseCefr(code).value) == code
    ensures ParseCefr(code).None? ==> forall level :: Code(level) != code
  {
    if |code| == 2 {
      assert code == [code[0], code[1]];
    }
  }

  lemma ParseCefrOfCode(level: Cefr)
    ensures ParseCefr(Code(level)) == Some(level)
  {
  }

  lemma CodesAreParsed()
    ensures forall level :: ParseCefr(Code(level)) == Some(level)
  {
    forall level: Cefr
      ensures ParseCefr(Code(level)) == Some(level)
    {
      ParseCefrOfCode(level);
    }
  }
}

=== FILE: question_service.dfy ===
/**
 * Question selection for the speaking tests.
 *
 * Questions are drawn at random from a fixed bank, optionally restricted to
 * one difficulty. Image questions also track which ids were already shown:
 * a pick prefers unused questions, and when every question of the requested
 * difficulty has been used, only that difficulty's marks are cleared. The
 * random draw is the parameter `rand` in [0, 1); session storage is left out.
 */
module QuestionService {
  import opened Common
  import Text

  datatype Level = Beginner | Intermediate | HighIntermediate | Advanced

  datatype Question = Question(id: string, text: string, difficulty: Level, category: string)

  datatype ImageQuestion = ImageQuestion(id: string, text: string, imageUrl: string, difficulty: Level, category: string)

  /** The questions of the question-answering test. */
  const QuestionBank: seq<Question> := [
    Question("q1", "What do you like to do in your free time?", Beginner, "daily life"),
    Question("q2", "Could you describe your hometown?", Beginner, "places"),
    Question("q3", "What are your plans for the future?", Intermediate, "personal"),
    Question("q4", "How do you think technology has changed education?", Advanced, "education"),
    Question("q5", "What are the advantages and disadvantages of living in a big city?", Intermediate, "places")
  ]

  /** The questions of the image-description test. */
  const ImageQuestionBank: seq<ImageQuestion> := [
    ImageQuestion("img1", "Describe what you see in this image.", "https://i.imgur.com/d1zItdX.png", HighIntermediate, "work")
  ]

  const UnsplashParameters: string := "?q=80&w=1200&auto=format&fit=crop"

  /** `Math.floor(rand * n)` for a draw `rand` of `Math.random()`. */
  function RandomIndex(rand: real, n: nat): (i: nat)
    requires 0.0 <= rand < 1.0 && n > 0
    ensures i < n
  {
    var x := rand * n as real;
    assert x < n as real;
    x.Floor
  }

  /** The questions of one difficulty. */
  function QuestionsOf(bank: seq<Question>, d: Level): (r: seq<Question>)
    ensures forall q :: q in r <==> q in bank && q.difficulty == d
  {
    Filter(bank, (q: Question) => q.difficulty == d)
  }

  /** The image questions of one difficulty. */
  function ImagesOf(bank: seq<ImageQuestion>, d: Level): (r: seq<ImageQuestion>)
    ensures forall q :: q in r <==> q in bank && q.difficulty == d
  {
    Filter(bank, (q: ImageQuestion) => q.difficulty == d)
  }

  /** The image questions whose id is not marked as used. */
  function Unused(qs: seq<ImageQuestion>, used: set<string>): (r: seq<ImageQuestion>)
    ensures forall q :: q in r <==> q in qs && q.id !in used
  {
    Filter(qs, (q: ImageQuestion) => q.id !in used)
  }

  /**
   * `getRandomQuestion`: an element of the restricted bank, or `undefined`
   * (`None`) when the bank has no question of that difficulty.
   */
  function GetRandomQuestion(bank: seq<Question>, difficulty: Option<Level>, rand: real): (r: Option<Question>)
    requires 0.0 <= rand < 1.0
    ensures r.Some? ==> r.value in bank
    ensures r.Some? && difficulty.Some? ==> r.value.difficulty == difficulty.value
    ensures r.None? <==> forall q :: q in bank ==> difficulty.Some? && q.difficulty != difficulty.value
  {
    var filtered := if difficulty.Some? then QuestionsOf(bank, difficulty.value) else bank;
    if |filtered| == 0 then None
    else
      assert filtered[0] in filtered;
      Some(filtered[RandomIndex(rand, |filtered|)])
  }

  /** The shipped question bank has no high-intermediate question, so asking for one yields `undefined`. */
  lemma NoHighIntermediateQuestion(rand: real)
    requires 0.0 <= rand < 1.0
    ensures GetRandomQuestion(QuestionBank, Some(HighIntermediate), rand).None?
  {
  }

  /** Unsplash image URLs without a query get the quality and size parameters. */
  function NormalizeUrl(url: string): (r: string)
    ensures r == url || r == url + UnsplashParameters
    ensures r != url <==> Text.Contains(url, "unsplash.com") && '?' !in url
  {
    if Text.Contains(url, "unsplash.com") && '?' !in url then url + UnsplashParameters else url
  }

  /** Normalizing twice is normalizing once: a normalized Unsplash URL already has a query. */
  lemma NormalizeUrlIsIdempotent(url: string)
    ensures NormalizeUrl(NormalizeUrl(url)) == NormalizeUrl(url)
  {
    var once := NormalizeUrl(url);
    if once != url {
      assert once[|url|] == '?';
      assert '?' in once;
    }
  }

  function NormalizeQuestion(q: ImageQuestion): ImageQuestion {
    q.(imageUrl := NormalizeUrl(q.imageUrl))
  }

  /** The in-place URL rewrite of the image bank, done at the start of every image pick. */
  function NormalizeBank(bank: seq<ImageQuestion>): (r: seq<ImageQuestion>)
    ensures |r| == |bank|
    ensures forall i :: 0 <= i < |bank| ==> r[i] == NormalizeQuestion(bank[i])
  {
    seq(|bank|, i requires 0 <= i < |bank| => NormalizeQuestion(bank[i]))
  }

  lemma NormalizeBankIsIdempotent(bank: seq<ImageQuestion>)
    ensures NormalizeBank(NormalizeBank(bank)) == NormalizeBank(bank)
  {
    forall i | 0 <= i < |bank|
      ensures NormalizeQuestion(NormalizeQuestion(bank[i])) == NormalizeQuestion(bank[i])
    {
      NormalizeUrlIsIdempotent(bank[i].imageUrl);
    }
  }

  /** Rewriting URLs keeps every question's id and difficulty. */
  lemma NormalizedFrom(bank: seq<ImageQuestion>, x: ImageQuestion)
    requires x in NormalizeBank(bank)
    ensures exists q :: q in bank && q.id == x.id && q.difficulty == x.difficulty
  {
    var j :| 0 <= j < |NormalizeBank(bank)| && NormalizeBank(bank)[j] == x;
    assert bank[j] in bank;
  }

  /** The image bank (rewritten in place) and the ids marked as used. */
  datatype ImageState = ImageState(bank: seq<ImageQuestion>, used: set<string>)

  function IdsOf(qs: seq<ImageQuestion>): set<string> {
    set q | q in qs :: q.id
  }

  /** The placeholder returned when no image question has the requested difficulty. */
  const FallbackText: string := "Describe what you " + "see in this image."

  const FallbackImageUrl: string := "https://placehold.co" + "/1200x800/e6f7ff" + "/0099cc?text=" + "Cool+English+Image"

  function Fallback(difficulty: Option<Level>): (q: ImageQuestion)
    ensures q.id == "fallback"
    ensures q.difficulty == (if difficulty.Some? then difficulty.value else Beginner)
  {
    ImageQuestion("fallback", FallbackText, FallbackImageUrl,
                  if difficulty.Some? then difficulty.value else Beginner, "general")
  }

  /** The questions a pick may come from: those of the difficulty, or all of them when none is asked for. */
  function Candidates(bank: seq<ImageQuestion>, difficulty: Option<Level>): (r: seq<ImageQuestion>)
    ensures difficulty.None? ==> r == bank
    ensures difficulty.Some? ==> r == ImagesOf(bank, difficulty.value)
    ensures forall q :: q in r ==> q in bank
  {
    if difficulty.Some? then ImagesOf(bank, difficulty.value) else bank
  }

  /**
   * The pick among non-empty candidates, and the marks after it: an unused
   * candidate when there is one, marking just it; otherwise any candidate,
   * after clearing the marks of all candidates.
   */
  function PickImage(used: set<string>, candidates: seq<ImageQuestion>, rand: real): (r: (set<string>, ImageQuestion))
    requires 0.0 <= rand < 1.0 && |candidates| > 0
    ensures r.1 in candidates
    ensures (exists q :: q in candidates && q.id !in used) ==> r.1.id !in used && r.0 == used + {r.1.id}
    ensures (forall q :: q in candidates ==> q.id in used) ==> r.0 == (used - IdsOf(candidates)) + {r.1.id}
  {
    var available := Unused(candidates, used);
    if |available| == 0 then
      var pick := candidates[RandomIndex(rand, |candidates|)];
      ((used - IdsOf(candidates)) + {pick.id}, pick)
    else
      assert available[0] in available;
      var pick := available[RandomIndex(rand, |available|)];
      (used + {pick.id}, pick)
  }

  /**
   * `getRandomImageQuestion`: rewrite the bank's URLs, restrict it to the
   * difficulty, fall back to the placeholder (marks untouched) when nothing
   * is left, and otherwise pick and mark a question of that difficulty.
   */
  function GetRandomImageQuestion(st: ImageState, difficulty: Option<Level>, rand: real): (r: (ImageState, ImageQuestion))
    requires 0.0 <= rand < 1.0
    ensures r.0.bank == NormalizeBank(st.bank)
    ensures difficulty.Some? ==> r.1.difficulty == difficulty.value
    ensures || (r.1 == Fallback(difficulty) && r.0.used == st.used)
            || (r.1 in r.0.bank && r.1.id in r.0.used && r.0.used - {r.1.id} <= st.used)
  {
    var bank := NormalizeBank(st.bank);
    var candidates := Candidates(bank, difficulty);
    if |candidates| == 0 then (ImageState(bank, st.used), Fallback(difficulty))
    else
      var pick := PickImage(st.used, candidates, rand);
      (ImageState(bank, pick.0), pick.1)
  }

  predicate HasLevel(bank: seq<ImageQuestion>, d: Level) {
    exists q :: q in bank && q.difficulty == d
  }

  /** No image question of the requested difficulty: the placeholder, and the marks stay as they were. */
  lemma MissingDifficultyFallsBack(st: ImageState, d: Level, rand: real)
    requires 0.0 <= rand < 1.0
    requires !HasLevel(st.bank, d)
    ensures var r := GetRandomImageQuestion(st, Some(d), rand);
      r.1 == Fallback(Some(d)) && r.1.id == "fallback" && r.1.difficulty == d && r.0.used == st.used
  {
  }

  /** The shipped image bank only has a high-intermediate question: a beginner asks get the placeholder. */
  lemma ShippedBankHasNoBeginnerImage(used: set<string>, rand: real)
    requires 0.0 <= rand < 1.0
    ensures GetRandomImageQuestion(ImageState(ImageQuestionBank, used), Some(Beginner), rand).1.id == "fallback"
  {
    MissingDifficultyFallsBack(ImageState(ImageQuestionBank, used), Beginner, rand);
  }

  predicate UnusedCandidateExists(st: ImageState, d: Level) {
    exists q :: q in st.bank && q.difficulty == d && q.id !in st.used
  }

  /**
   * With an unused question of the difficulty at hand, the pick is one of
   * them, previously unused, and exactly its id becomes marked.
   */
  lemma UnusedQuestionIsPicked(st: ImageState, d: Level, rand: real)
    requires 0.0 <= rand < 1.0
    requires UnusedCandidateExists(st, d)
    ensures var r := GetRandomImageQuestion(st, Some(d), rand);
      && r.1 in r.0.bank && r.1.difficulty == d && r.1.id !in st.used
      && r.0.used == st.used + {r.1.id}
  {
    var bank := NormalizeBank(st.bank);
    var q :| q in st.bank && q.difficulty == d && q.id !in st.used;
    var i :| 0 <= i < |st.bank| && st.bank[i] == q;
    assert bank[i] in bank;
    assert bank[i] in Candidates(bank, Some(d));
  }

  /**
   * When every question of the difficulty was used, only the marks of that
   * difficulty are cleared; marks of other questions survive, and exactly
   * the pick is marked again.
   */
  lemma ExhaustedDifficultyIsReset(st: ImageState, d: Level, rand: real)
    requires 0.0 <= rand < 1.0
    requires HasLevel(st.bank, d) && !UnusedCandidateExists(st, d)
    ensures var r := GetRandomImageQuestion(st, Some(d), rand);
      var levelIds := IdsOf(ImagesOf(NormalizeBank(st.bank), d));
      && r.1 in r.0.bank && r.1.difficulty == d
      && r.0.used == (st.used - levelIds) + {r.1.id}
      && (forall id :: id in st.used && id !in levelIds ==> id in r.0.used)
  {
    var bank := NormalizeBank(st.bank);
    var q :| q in st.bank && q.difficulty == d;
    var i :| 0 <= i < |st.bank| && st.bank[i] == q;
    assert bank[i] in bank;
    var candidates := Candidates(bank, Some(d));
    assert bank[i] in candidates;
    forall x | x in candidates
      ensures x.id in st.used
    {
      NormalizedFrom(st.bank, x);
    }
  }

  /** `resetUsedImages`: no id stays marked. */
  function ResetUsedImages(st: ImageState): (r: ImageState)
    ensures r.bank == st.bank
    ensures forall id :: id !in r.used
  {
    st.(used := {})
  }

  /** After a reset, a pick of a present difficulty goes through the unused path and marks only itself. */
  lemma PickAfterResetMarksOnlyThePick(st: ImageState, d: Level, rand: real)
    requires 0.0 <= rand < 1.0
    requires HasLevel(st.bank, d)
    ensures var r := GetRandomImageQuestion(ResetUsedImages(st), Some(d), rand);
      r.0.used == {r.1.id} && r.1.difficulty == d
  {
    var cleared := ResetUsedImages(st);
    assert UnusedCandidateExists(cleared, d);
    UnusedQuestionIsPicked(cleared, d, rand);
  }

  /** The distinct difficulties of a bank in order of first appearance (a JavaScript `Set`'s iteration order). */
  function DistinctLevels(bank: seq<ImageQuestion>): seq<Level>
    decreases |bank|
  {
    if |bank| == 0 then []
    else
      var front := DistinctLevels(bank[..|bank| - 1]);
      var d := bank[|bank| - 1].difficulty;
      if d in front then front else front + [d]
  }

  /**
   * `getAvailableDifficulties`: every difficulty present in the bank exactly
   * once, nothing else, in order of first appearance.
   */
  method GetAvailableDifficulties(bank: seq<ImageQuestion>) returns (levels: seq<Level>)
    ensures forall i, j :: 0 <= i < j < |levels| ==> levels[i] != levels[j]
    ensures forall d :: d in levels <==> HasLevel(bank, d)
    ensures levels == DistinctLevels(bank)
  {
    levels := [];
    var k := 0;
    while k < |bank|
      invariant 0 <= k <= |bank|
      invariant levels == DistinctLevels(bank[..k])
      invariant forall i, j :: 0 <= i < j < |levels| ==> levels[i] != levels[j]
      invariant forall d :: d in levels <==> HasLevel(bank[..k], d)
    {
      var d := bank[k].difficulty;
      assert bank[..k + 1][..k] == bank[..k];
      assert forall q :: q in bank[..k + 1] <==> q in bank[..k] || q == bank[k];
      if d !in levels {
        levels := levels + [d];
      }
      k := k + 1;
    }
    assert bank[..k] == bank;
  }

  /** The shipped image bank offers one difficulty. */
  method ShippedDifficulties() returns (levels: seq<Level>)
    ensures levels == [HighIntermediate]
  {
    levels := GetAvailableDifficulties(ImageQuestionBank);
    assert levels == DistinctLevels(ImageQuestionBank);
  }
}

=== FILE: recognizer.dfy ===
/**
 * The continuous speech recognizer session.
 *
 * Recognition events drive a `speaking` flag and the caller's callbacks; a
 * final transcript is passed on only when it holds an ASCII letter. `start`
 * derives the engine options from the configuration, volume is the mean of
 * the analyser's frequency bins scaled to [0, 1], the token is refreshed on a
 * fixed period, and `stop` clears the handles but not the flag.
 */
module Recognizer {
  import opened Common
  import Text
  import Credential

  const RecognitionLanguage: string := "en-US"
  /** Period of the token refresh timer. */
  const TokenRefreshPeriodMs: nat := 180000
  /** `analyser.fftSize`; the analyser exposes half as many frequency bins. */
  const FftSize: nat := 256
  const FrequencyBinCount: nat := FftSize / 2

  /** An opaque pronunciation assessment result handed to the caller. */
  datatype Assessment = Assessment(json: string)

  /** The caller's configuration: which callbacks are present, and the recognition options. */
  datatype RecognizerConfig = RecognizerConfig(
    hasPronunciationCallback: bool,
    topic: Option<string>,
    phraseList: Option<seq<string>>,
    silenceTimeoutMs: Option<int>)

  datatype OutputFormat = Simple | Detailed
  datatype GradingSystem = HundredMark
  datatype Granularity = Phoneme

  datatype AssessmentOptions = AssessmentOptions(
    referenceText: string,
    grading: GradingSystem,
    granularity: Granularity,
    enableMiscue: bool,
    enableProsody: bool,
    contentTopic: Option<string>)

  /** What `start` configures on the recognition engine. */
  datatype EngineOptions = EngineOptions(
    language: string,
    outputFormat: OutputFormat,
    segmentationSilenceTimeoutMs: Option<int>,
    assessment: Option<AssessmentOptions>,
    phrases: Option<seq<string>>)

  /** JavaScript truthiness of an optional number and of an optional string. */
  predicate TruthyNumber(n: Option<int>) { n.Some? && n.value != 0 }
  predicate TruthyString(s: Option<string>) { s.Some? && s.value != [] }

  /**
   * The option derivation in `start`: the silence timeout only when the
   * configured value is truthy; pronunciation assessment only when the
   * caller listens for it, with the topic only inside that branch; the
   * phrase list only when it is non-empty.
   */
  function DeriveEngineOptions(config: RecognizerConfig): (o: EngineOptions)
    ensures o.language == RecognitionLanguage && o.outputFormat == Detailed
    ensures o.segmentationSilenceTimeoutMs.Some? <==> TruthyNumber(config.silenceTimeoutMs)
    ensures o.segmentationSilenceTimeoutMs.Some? ==> o.segmentationSilenceTimeoutMs == config.silenceTimeoutMs
    ensures o.assessment.Some? <==> config.hasPronunciationCallback
    ensures o.assessment.Some? ==>
      && o.assessment.value.referenceText == [] && o.assessment.value.enableMiscue && o.assessment.value.enableProsody
      && (o.assessment.value.contentTopic.Some? <==> TruthyString(config.topic))
      && (o.assessment.value.contentTopic.Some? ==> o.assessment.value.contentTopic == config.topic)
    ensures o.phrases.Some? <==> config.phraseList.Some? && |config.phraseList.value| > 0
    ensures o.phrases.Some? ==> o.phrases == config.phraseList
  {
    var timeout := if TruthyNumber(config.silenceTimeoutMs) then config.silenceTimeoutMs else None;
    var assessment :=
      if config.hasPronunciationCallback then
        Some(AssessmentOptions([], HundredMark, Phoneme, true, true,
                               if TruthyString(config.topic) then config.topic else None))
      else None;
    var phrases := if config.phraseList.Some? && |config.phraseList.value| > 0 then config.phraseList else None;
    EngineOptions(RecognitionLanguage, Detailed, timeout, assessment, phrases)
  }

  /**
   * Settings that do not reach the engine: a topic without the assessment
   * callback, and falsy values (a zero timeout, an empty topic, an empty
   * phrase list), which count as absent.
   */
  lemma IgnoredSettings(config: RecognizerConfig, topic: Option<string>)
    ensures !config.hasPronunciationCallback ==> DeriveEngineOptions(config.(topic := topic)) == DeriveEngineOptions(config)
    ensures DeriveEngineOptions(config.(silenceTimeoutMs := Some(0))) == DeriveEngineOptions(config.(silenceTimeoutMs := None))
    ensures DeriveEngineOptions(config.(topic := Some([]))) == DeriveEngineOptions(config.(topic := None))
    ensures DeriveEngineOptions(config.(phraseList := Some([]))) == DeriveEngineOptions(config.(phraseList := None))
  {
  }

  /** The live recognition engine: its authorization and its options. */
  datatype Engine = Engine(token: Credential.TokenValue, region: string, options: EngineOptions)

  datatype Session = Session(
    engine: Option<Engine>,     // this.recognizer
    audioContextOpen: bool,     // this.audioContext is set
    refreshTimerActive: bool,   // the token refresh interval is running
    speaking: bool,             // an utterance is in progress
    orphanedHandles: nat)       // handles overwritten by `start` without being closed

  const Initial := Session(None, false, false, false, 0)

  /** The SDK's result reasons that the handlers distinguish. */
  datatype Reason = RecognizingSpeech | RecognizedSpeech | NoMatch | OtherReason

  datatype RecognitionEvent =
    | Recognizing(reason: Reason, text: string)
    | Recognized(reason: Reason, text: string, assessment: Option<Assessment>)
    | Canceled
    | SessionStopped

  /**
   * What a handler invokes: the caller's callbacks (a no-op when the caller
   * did not supply that callback) and requests to the engine.
   */
  datatype Signal =
    | SpeechStart
    | SpeechUpdate(text: string)
    | SpeechEnd(text: string)
    | PronunciationAssessed(assessment: Assessment)
    | StopContinuousRecognition
    | CloseEngine
    | CloseAudioContext

  /** The validity filter of the final-result handler: non-empty after trim, and an ASCII letter somewhere. */
  predicate IsValidTranscript(text: string) {
    text != [] && Text.Trim(text) != [] && Text.HasAsciiLetter(text)
  }

  /** The filter reduces to the letter test: a letter is never whitespace. */
  lemma ValidTranscriptIffHasLetter(text: string)
    ensures IsValidTranscript(text) <==> Text.HasAsciiLetter(text)
  {
    if Text.HasAsciiLetter(text) {
      var i :| 0 <= i < |text| && Text.IsAsciiLetter(text[i]);
      assert !Text.IsWhitespace(text[i]);
    }
  }

  datatype Step = Step(session: Session, signals: seq<Signal>)

  /**
   * The `recognizing`, `recognized`, `canceled` and `sessionStopped`
   * handlers as one step over the session.
   */
  function OnEvent(s: Session, e: RecognitionEvent): (r: Step)
    ensures r.session.engine == s.engine && r.session.audioContextOpen == s.audioContextOpen
    ensures r.session.refreshTimerActive == s.refreshTimerActive && r.session.orphanedHandles == s.orphanedHandles
  {
    match e
    case Recognizing(reason, text) =>
      if reason == RecognizingSpeech then
        Step(s.(speaking := true), (if s.speaking then [] else [SpeechStart]) + [SpeechUpdate(text)])
      else Step(s, [])
    case Recognized(reason, text, assessment) =>
      if reason == RecognizedSpeech then
        var signals :=
          if IsValidTranscript(text) then
            [SpeechEnd(text)] + (if assessment.Some? then [PronunciationAssessed(assessment.value)] else [])
          else [];
        Step(s.(speaking := false), signals)
      else Step(s, [])
    case Canceled =>
      Step(s, if s.engine.Some? then [StopContinuousRecognition] else [])
    case SessionStopped =>
      Step(s, if s.engine.Some? then [StopContinuousRecognition] else [])
  }

  /**
   * An interim result starts an utterance exactly when none was in progress,
   * always reports the partial text last, and leaves `speaking` set.
   */
  lemma InterimResultStartsUtteranceOnce(s: Session, text: string)
    ensures var r := OnEvent(s, Recognizing(RecognizingSpeech, text));
      && r.session.speaking
      && (SpeechStart in r.signals <==> !s.speaking)
      && |r.signals| > 0 && r.signals[|r.signals| - 1] == SpeechUpdate(text)
      && (forall i :: 0 <= i < |r.signals| - 1 ==> r.signals[i] == SpeechStart)
  {
  }

  /** A final result always ends the utterance and never reports a start. */
  lemma FinalResultEndsUtterance(s: Session, text: string, assessment: Option<Assessment>)
    ensures var r := OnEvent(s, Recognized(RecognizedSpeech, text, assessment));
      !r.session.speaking && SpeechStart !in r.signals
  {
  }

  /**
   * The transcript of a final result is passed on exactly when it holds an
   * ASCII letter, and then before anything else; otherwise nothing is invoked.
   */
  lemma FinalTranscriptPassedOnIffValid(s: Session, text: string, assessment: Option<Assessment>)
    ensures var r := OnEvent(s, Recognized(RecognizedSpeech, text, assessment));
      && (SpeechEnd(text) in r.signals <==> Text.HasAsciiLetter(text))
      && (!Text.HasAsciiLetter(text) ==> r.signals == [])
      && (Text.HasAsciiLetter(text) ==> r.signals[0] == SpeechEnd(text))
  {
    ValidTranscriptIffHasLetter(text);
  }

  /** The assessment is passed on only after a valid transcript, and only when one exists. */
  lemma AssessmentFollowsValidTranscript(s: Session, text: string, assessment: Option<Assessment>, a: Assessment)
    ensures var r := OnEvent(s, Recognized(RecognizedSpeech, text, assessment));
      PronunciationAssessed(a) in r.signals <==> IsValidTranscript(text) && assessment == Some(a)
    ensures var r := OnEvent(s, Recognized(RecognizedSpeech, text, assessment));
      PronunciationAssessed(a) in r.signals ==> r.signals == [SpeechEnd(text), PronunciationAssessed(a)]
  {
    var r := OnEvent(s, Recognized(RecognizedSpeech, text, assessment));
    if !IsValidTranscript(text) {
      assert r.signals == [];
    } else if assessment.None? {
      assert r.signals == [SpeechEnd(text)];
    } else {
      assert r.signals == [SpeechEnd(text), PronunciationAssessed(assessment.value)];
    }
  }

  /** An empty or whitespace-only final transcript is never passed on. */
  lemma BlankTranscriptIsDropped(s: Session, text: string, assessment: Option<Assessment>)
    requires Text.AllWhitespace(text)
    ensures OnEvent(s, Recognized(RecognizedSpeech, text, assessment)).signals == []
  {
  }

  /** Results of any other reason (no match included) change nothing and invoke nothing. */
  lemma OtherReasonsAreIgnored(s: Session, reason: Reason, text: string, assessment: Option<Assessment>)
    ensures reason != RecognizingSpeech ==> OnEvent(s, Recognizing(reason, text)) == Step(s, [])
    ensures reason != RecognizedSpeech ==> OnEvent(s, Recognized(reason, text, assessment)) == Step(s, [])
  {
  }

  /** Replays a series of events. */
  function OnEvents(s: Session, events: seq<RecognitionEvent>): Step
    decreases |events|
  {
    if |events| == 0 then Step(s, [])
    else
      var first := OnEvent(s, events[0]);
      var rest := OnEvents(first.session, events[1..]);
      Step(rest.session, first.signals + rest.signals)
  }

  function CountStarts(signals: seq<Signal>): nat {
    multiset(signals)[SpeechStart]
  }

  predicate IsFinalSpeech(e: RecognitionEvent) {
    e.Recognized? && e.reason == RecognizedSpeech
  }

  /**
   * Between two final results the start callback fires at most once, and not
   * at all when an utterance was already in progress; afterwards `speaking`
   * is set exactly when it was set before or a start fired.
   */
  lemma {:induction false} AtMostOneStartPerUtterance(s: Session, events: seq<RecognitionEvent>)
    requires forall i :: 0 <= i < |events| ==> !IsFinalSpeech(events[i])
    ensures var r := OnEvents(s, events);
      && CountStarts(r.signals) <= (if s.speaking then 0 else 1)
      && (r.session.speaking <==> s.speaking || CountStarts(r.signals) == 1)
    decreases |events|
  {
    if |events| > 0 {
      var first := OnEvent(s, events[0]);
      OneStepStartCount(s, events[0]);
      assert forall i :: 0 <= i < |events[1..]| ==> events[1..][i] == events[i + 1];
      AtMostOneStartPerUtterance(first.session, events[1..]);
      var rest := OnEvents(first.session, events[1..]);
      assert multiset(first.signals + rest.signals) == multiset(first.signals) + multiset(rest.signals);
    }
  }

  lemma OneStepStartCount(s: Session, e: RecognitionEvent)
    requires !IsFinalSpeech(e)
    ensures var r := OnEvent(s, e);
      && CountStarts(r.signals) <= (if s.speaking then 0 else 1)
      && (r.session.speaking <==> s.speaking || CountStarts(r.signals) == 1)
  {
  }

  /**
   * One sample of the volume meter: the mean of the frequency bins over 255.
   * The sampling reschedules itself only while the engine handle is set.
   */
  datatype VolumeSample = VolumeSample(level: real, reschedule: bool)

  type Byte = b: int | 0 <= b < 256

  function Sum(bins: seq<Byte>): (total: nat)
    ensures total <= 255 * |bins|
  {
    if |bins| == 0 then 0 else Sum(bins[..|bins| - 1]) + bins[|bins| - 1]
  }

  /**
   * The reported level lies in [0, 1] and times 255 times the bin count
   * gives back the bin total, in exact arithmetic.
   */
  function UpdateVolume(s: Session, bins: seq<Byte>): (r: VolumeSample)
    requires |bins| == FrequencyBinCount
    ensures 0.0 <= r.level <= 1.0
    ensures r.level * 255.0 * (|bins| as real) == Sum(bins) as real
    ensures r.reschedule <==> s.engine.Some?
  {
    var n := |bins| as real;
    var total := Sum(bins) as real;
    var average := total / n;
    assert total <= 255.0 * n;
    assert average <= 255.0 by {
      assert average * n == total;
    }
    VolumeSample(average / 255.0, s.engine.Some?)
  }

  /** Silence reads as level 0 and a saturated spectrum as level 1. */
  lemma VolumeExtremes(s: Session, bins: seq<Byte>)
    requires |bins| == FrequencyBinCount
    ensures (forall i :: 0 <= i < |bins| ==> bins[i] == 0) ==> UpdateVolume(s, bins).level == 0.0
    ensures (forall i :: 0 <= i < |bins| ==> bins[i] == 255) ==> UpdateVolume(s, bins).level == 1.0
  {
    if forall i :: 0 <= i < |bins| ==> bins[i] == 0 {
      SumOfConstant(bins, 0);
    }
    if forall i :: 0 <= i < |bins| ==> bins[i] == 255 {
      SumOfConstant(bins, 255);
    }
  }

  lemma {:induction false} SumOfConstant(bins: seq<Byte>, v: Byte)
    requires forall i :: 0 <= i < |bins| ==> bins[i] == v
    ensures Sum(bins) == v * |bins|
    decreases |bins|
  {
    if |bins| > 0 {
      SumOfConstant(bins[..|bins| - 1], v);
    }
  }

  /**
   * One tick of the token refresh timer: nothing at all without an engine;
   * otherwise a credential is obtained and its token installed on the engine.
   * A failure is an unhandled rejection that leaves the engine as it was.
   */
  function RefreshToken(s: Session, cache: Credential.Cache, nowMs: int, decode: Credential.PayloadDecoder,
                        outcome: Credential.FetchOutcome): (r: (Session, Credential.Cache))
    ensures s.engine.None? ==> r == (s, cache)
    ensures s.engine.Some? ==> r.1 == Credential.GetAzureCredential(cache, nowMs, decode, outcome).cache
    ensures r.0.speaking == s.speaking && r.0.engine.Some? == s.engine.Some?
    ensures s.engine.Some? ==>
      var got := Credential.GetAzureCredential(cache, nowMs, decode, outcome).result;
      && (got.Ok? ==> r.0.engine.value == s.engine.value.(token := got.value.token))
      && (got.Err? ==> r.0 == s)
  {
    if s.engine.None? then (s, cache)
    else
      var step := Credential.GetAzureCredential(cache, nowMs, decode, outcome);
      match step.result
      case Ok(c) => (s.(engine := Some(s.engine.value.(token := c.token))), step.cache)
      case Err(_) => (s, step.cache)
  }

  /**
   * A tick that changed the engine's token installed the credential now in
   * the cache; a tick with a valid cached credential installs that
   * credential's token and leaves the cache alone.
   */
  lemma RefreshedTokenIsCached(s: Session, cache: Credential.Cache, nowMs: int, decode: Credential.PayloadDecoder,
                               outcome: Credential.FetchOutcome)
    requires s.engine.Some?
    ensures var r := RefreshToken(s, cache, nowMs, decode, outcome);
      r.0.engine.value.token != s.engine.value.token ==> r.1.Resolved? && r.0.engine.value.token == r.1.cred.token
    ensures Credential.ReusesCache(cache, nowMs, decode) ==>
      var r := RefreshToken(s, cache, nowMs, decode, outcome);
      r.1 == cache && r.0.engine.value.token == cache.cred.token
  {
  }

  datatype StartError = AuthFailure(error: Credential.CredError) | DeviceAccessFailure

  /**
   * The outcome of `start`: the session, the credential cache, the error that
   * rejected the call, if any, and the period of the refresh timer it set up.
   */
  datatype StartStep = StartStep(session: Session, cache: Credential.Cache, error: Option<StartError>,
                                 refreshPeriodMs: Option<nat>)

  /**
   * `start`: a credential first, then the microphone; either failure rejects
   * the call before any handle is set. On success the audio context, the
   * engine (with the derived options) and the refresh timer are installed,
   * overwriting any handles of a session that was never stopped; `speaking`
   * is not touched.
   */
  function Start(s: Session, config: RecognizerConfig, cache: Credential.Cache, nowMs: int,
                 decode: Credential.PayloadDecoder, outcome: Credential.FetchOutcome, microphoneGranted: bool): (r: StartStep)
    ensures r.cache == Credential.GetAzureCredential(cache, nowMs, decode, outcome).cache
    ensures r.error.Some? ==> r.session == s && r.refreshPeriodMs.None?
    ensures r.error.None? ==> r.refreshPeriodMs == Some(TokenRefreshPeriodMs)
    ensures r.error.None? <==> Credential.GetAzureCredential(cache, nowMs, decode, outcome).result.Ok? && microphoneGranted
    ensures r.error.None? ==>
      && r.session.engine.Some? && r.session.audioContextOpen && r.session.refreshTimerActive
      && r.session.engine.value.options == DeriveEngineOptions(config)
      && r.session.speaking == s.speaking
    ensures r.error.None? && s.engine.None? && !s.audioContextOpen && !s.refreshTimerActive ==>
      r.session.orphanedHandles == s.orphanedHandles
    ensures r.error.None? && s.engine.Some? ==> r.session.orphanedHandles > s.orphanedHandles
  {
    var step := Credential.GetAzureCredential(cache, nowMs, decode, outcome);
    match step.result
    case Err(e) => StartStep(s, step.cache, Some(AuthFailure(e)), None)
    case Ok(c) =>
      if !microphoneGranted then StartStep(s, step.cache, Some(DeviceAccessFailure), None)
      else
        var overwritten := (if s.engine.Some? then 1 else 0) + (if s.audioContextOpen then 1 else 0)
          + (if s.refreshTimerActive then 1 else 0);
        var engine := Engine(c.token, c.region, DeriveEngineOptions(config));
        StartStep(Session(Some(engine), true, true, s.speaking, s.orphanedHandles + overwritten), step.cache, None,
                  Some(TokenRefreshPeriodMs))
  }

  /**
   * `stop`: clears the refresh timer, stops and closes the engine and closes
   * the audio context when they are set, and unsets both handles. `speaking`
   * is left as it was.
   */
  function Stop(s: Session): (r: Step)
    ensures r.session.engine.None? && !r.session.audioContextOpen && !r.session.refreshTimerActive
    ensures r.session.speaking == s.speaking && r.session.orphanedHandles == s.orphanedHandles
    ensures CloseEngine in r.signals <==> s.engine.Some?
    ensures CloseAudioContext in r.signals <==> s.audioContextOpen
  {
    var engineSignals := if s.engine.Some? then [StopContinuousRecognition, CloseEngine] else [];
    var contextSignals := if s.audioContextOpen then [CloseAudioContext] else [];
    Step(s.(engine := None, audioContextOpen := false, refreshTimerActive := false), engineSignals + contextSignals)
  }

  /** Stopping twice is the same as stopping once, and the second stop closes nothing. */
  lemma StopIsIdempotent(s: Session)
    ensures Stop(Stop(s).session).session == Stop(s).session
    ensures Stop(Stop(s).session).signals == []
  {
  }

  /**
   * Because `stop` keeps `speaking`, a session stopped in the middle of an
   * utterance never reports the start of the first utterance of the next
   * session.
   */
  lemma StopMidUtteranceHidesNextStart(s: Session, config: RecognizerConfig, cache: Credential.Cache, nowMs: int,
                                       decode: Credential.PayloadDecoder, outcome: Credential.FetchOutcome, text: string)
    requires s.speaking
    requires Start(Stop(s).session, config, cache, nowMs, decode, outcome, true).error.None?
    ensures var restarted := Start(Stop(s).session, config, cache, nowMs, decode, outcome, true).session;
      SpeechStart !in OnEvent(restarted, Recognizing(RecognizingSpeech, text)).signals
  {
  }
}

=== FILE: schema.dfy ===
/**
 * Object schemas in the style of the zod library and `removeUnsupportedProps`,
 * which removes the bounds from number and string fields (the structured
 * output mode of the model provider refuses them) while keeping the shape.
 */
module Schema {
  import opened Common
  import Text

  /** A bound on a number: `.min(x)` and `.max(x)` are inclusive. */
  datatype NumCheck = Min(low: real) | Max(high: real)

  /** A bound on a string: `.max(n)` counts UTF-16 code units; `.url()` asks for a URL. */
  datatype StrCheck = MaxLength(limit: nat) | Url

  /**
   * A schema node. `Optional` and `Opaque` stand for every other schema kind
   * (optional wrappers, arrays, enums, …): stripping keeps them untouched.
   */
  datatype Schema =
    | Num(numChecks: seq<NumCheck>)
    | Str(strChecks: seq<StrCheck>)
    | Obj(fields: map<string, Schema>)
    | Optional(inner: Schema)
    | Opaque(kind: string)

  /** A parsed JSON value; `Undefined` is the value of a missing key. */
  datatype Json =
    | Undefined
    | Null
    | Bool(b: bool)
    | Number(n: real)
    | Text(s: string)
    | Array(items: seq<Json>)
    | Object(members: map<string, Json>)

  /** What the model cannot see: the URL test and the meaning of opaque kinds. */
  datatype Oracles = Oracles(isUrl: string -> bool, opaqueAccepts: (string, Json) -> bool)

  function Member(v: Json, key: string): Json {
    if v.Object? && key in v.members then v.members[key] else Undefined
  }

  predicate NumCheckHolds(c: NumCheck, x: real) {
    match c
    case Min(low) => low <= x
    case Max(high) => x <= high
  }

  predicate StrCheckHolds(c: StrCheck, s: string, o: Oracles) {
    match c
    case MaxLength(limit) => Text.Utf16Length(s) <= limit
    case Url => o.isUrl(s)
  }

  /** `schema.safeParse(v).success`. */
  predicate Accepts(schema: Schema, v: Json, o: Oracles)
    decreases schema
  {
    match schema
    case Num(checks) => v.Number? && forall i :: 0 <= i < |checks| ==> NumCheckHolds(checks[i], v.n)
    case Str(checks) => v.Text? && forall i :: 0 <= i < |checks| ==> StrCheckHolds(checks[i], v.s, o)
    case Obj(fields) => v.Object? && forall k :: k in fields ==> Accepts(fields[k], Member(v, k), o)
    case Optional(inner) => v.Undefined? || Accepts(inner, v, o)
    case Opaque(kind) => o.opaqueAccepts(kind, v)
  }

  /**
   * No bound left for `removeUnsupportedProps` to remove: number and string
   * nodes reached through object fields carry no checks. Optional wrappers
   * and other kinds are not looked into, as the rewrite does not look into them.
   */
  predicate Unconstrained(schema: Schema)
    decreases schema
  {
    match schema
    case Num(checks) => checks == []
    case Str(checks) => checks == []
    case Obj(fields) => forall k :: k in fields ==> Unconstrained(fields[k])
    case Optional(_) => true
    case Opaque(_) => true
  }

  /** The field rule of `removeUnsupportedProps`, applied to one field. */
  function Strip(schema: Schema): (r: Schema)
    decreases schema
  {
    match schema
    case Num(_) => Num([])
    case Str(_) => Str([])
    case Obj(fields) => Obj(map k | k in fields :: Strip(fields[k]))
    case Optional(_) => schema
    case Opaque(_) => schema
  }

  /**
   * `removeUnsupportedProps`: the same keys; number and string fields lose
   * their bounds; object fields are rewritten the same way; every other
   * field is kept as it was, without looking inside it.
   */
  function RemoveUnsupportedProps(fields: map<string, Schema>): (r: map<string, Schema>)
    ensures r.Keys == fields.Keys
    ensures Unconstrained(Obj(r))
    ensures forall k :: k in fields && fields[k].Num? ==> r[k] == Num([])
    ensures forall k :: k in fields && fields[k].Str? ==> r[k] == Str([])
    ensures forall k :: k in fields && fields[k].Obj? ==> r[k].Obj? && r[k].fields.Keys == fields[k].fields.Keys
    ensures forall k :: k in fields && (fields[k].Optional? || fields[k].Opaque?) ==> r[k] == fields[k]
  {
    StripIsUnconstrained(Obj(fields));
    var r := Strip(Obj(fields)).fields;
    assert forall k :: k in fields ==> r[k] == Strip(fields[k]);
    r
  }

  /** Stripping leaves no bound reachable through object fields. */
  lemma {:induction false} StripIsUnconstrained(schema: Schema)
    ensures Unconstrained(Strip(schema))
    decreases schema
  {
    match schema
    case Obj(fields) =>
      forall k | k in fields
        ensures Unconstrained(Strip(fields[k]))
      {
        StripIsUnconstrained(fields[k]);
      }
    case _ =>
  }

  /** A schema without bounds is left as it is. */
  lemma {:induction false} StripFixesUnconstrained(schema: Schema)
    requires Unconstrained(schema)
    ensures Strip(schema) == schema
    decreases schema
  {
    match schema
    case Obj(fields) =>
      forall k | k in fields
        ensures Strip(fields[k]) == fields[k]
      {
        StripFixesUnconstrained(fields[k]);
      }
    case _ =>
  }

  /** Stripping twice is stripping once. */
  lemma RemoveUnsupportedPropsIsIdempotent(fields: map<string, Schema>)
    ensures RemoveUnsupportedProps(RemoveUnsupportedProps(fields)) == RemoveUnsupportedProps(fields)
  {
    StripIsUnconstrained(Obj(fields));
    StripFixesUnconstrained(Strip(Obj(fields)));
  }

  /** Stripping only loosens: every value the original accepts, the stripped schema accepts. */
  lemma {:induction false} StripOnlyLoosens(schema: Schema, v: Json, o: Oracles)
    requires Accepts(schema, v, o)
    ensures Accepts(Strip(schema), v, o)
    decreases schema
  {
    match schema
    case Obj(fields) =>
      forall k | k in fields
        ensures Accepts(Strip(fields[k]), Member(v, k), o)
      {
        StripOnlyLoosens(fields[k], Member(v, k), o);
      }
    case _ =>
  }

  /** `v` has the shape of `schema`: the right kinds of values under the right keys, bounds aside. */
  predicate Shaped(schema: Schema, v: Json, o: Oracles)
    decreases schema
  {
    match schema
    case Num(_) => v.Number?
    case Str(_) => v.Text?
    case Obj(fields) => v.Object? && forall k :: k in fields ==> Shaped(fields[k], Member(v, k), o)
    case Optional(inner) => v.Undefined? || Accepts(inner, v, o)
    case Opaque(kind) => o.opaqueAccepts(kind, v)
  }

  /** The stripped schema checks the shape and nothing more. */
  lemma {:induction false} StrippedChecksShapeOnly(schema: Schema, v: Json, o: Oracles)
    ensures Accepts(Strip(schema), v, o) <==> Shaped(schema, v, o)
    decreases schema
  {
    match schema
    case Obj(fields) =>
      forall k | k in fields
        ensures Accepts(Strip(fields[k]), Member(v, k), o) <==> Shaped(fields[k], Member(v, k), o)
      {
        StrippedChecksShapeOnly(fields[k], Member(v, k), o);
      }
      assert Strip(schema).fields.Keys == fields.Keys;
    case _ =>
  }
}

=== FILE: score_answer.dfy ===
/**
 * The answer-grading endpoint: it validates the request, sends the
 * question (optionally with its image) and the learner's answer to the
 * model, and answers the model's scores only after the jailbreak verdict,
 * the empty-reply test and a local re-validation of the reply against the
 * bounded response schema. The model's reply, the jailbreak verdict, the
 * URL test and `JSON.parse` are inputs.
 */
module ScoreAnswer {
  import opened Common
  import Text
  import opened Schema

  const MaxFieldLength: nat := 1000

  const MaxFeedbackLength: nat := 4000

  const MaxResponseTokens: nat := 1000

  const AnswerSchema: Schema := Str([MaxLength(MaxFieldLength)])

  const ImageSchema: Schema := Str([Url, MaxLength(MaxFieldLength)])

  const QuestionSchema: Schema := Obj(map["text" := AnswerSchema, "image" := Optional(ImageSchema)])

  /** The request body schema: an optional question with an optional image URL, and an answer. */
  const RequestSchema: Schema := Obj(map["question" := Optional(QuestionSchema), "answer" := AnswerSchema])

  const ScoreSchema: Schema := Num([Min(0.0), Max(100.0)])

  const GradeSchema: Schema := Num([Min(0.0), Max(5.0)])

  const FeedbackSchema: Schema := Str([MaxLength(MaxFeedbackLength)])

  /** The response schema: three scores in [0, 100], a grade in [0, 5] and the feedback text. */
  const ResponseSchema: Schema :=
    Obj(map["vocabulary" := ScoreSchema, "grammar" := ScoreSchema, "relevance" := ScoreSchema,
            "grade" := GradeSchema, "feedback" := FeedbackSchema])

  datatype QuestionPart = QuestionPart(text: string, image: Option<string>)

  /** A validated request. */
  datatype GradingRequest = GradingRequest(question: Option<QuestionPart>, answer: string)

  predicate ValidRequest(body: Json, o: Oracles) {
    Accepts(RequestSchema, body, o)
  }

  /** The validated request, read from a body the request schema accepts. */
  function ReadRequest(body: Json, o: Oracles): (r: GradingRequest)
    requires ValidRequest(body, o)
    ensures Text.Utf16Length(r.answer) <= MaxFieldLength
    ensures r.question.Some? ==> Text.Utf16Length(r.question.value.text) <= MaxFieldLength
    ensures r.question.Some? && r.question.value.image.Some? ==>
      o.isUrl(r.question.value.image.value) && Text.Utf16Length(r.question.value.image.value) <= MaxFieldLength
    ensures Member(body, "answer") == Json.Text(r.answer)
    ensures r.question.Some? <==> !Member(body, "question").Undefined?
    ensures r.question.Some? ==>
      var q := Member(body, "question");
      && Member(q, "text") == Json.Text(r.question.value.text)
      && (r.question.value.image.Some? <==> !Member(q, "image").Undefined?)
      && (r.question.value.image.Some? ==> Member(q, "image") == Json.Text(r.question.value.image.value))
  {
    var question := Member(body, "question");
    assert Accepts(AnswerSchema, Member(body, "answer"), o);
    assert AnswerSchema.strChecks[0] == MaxLength(MaxFieldLength);
    var part :=
      if question.Undefined? then None
      else
        assert Accepts(Optional(QuestionSchema), question, o);
        var image := Member(question, "image");
        assert Accepts(AnswerSchema, Member(question, "text"), o);
        assert Accepts(Optional(ImageSchema), image, o);
        assert ImageSchema.strChecks[0] == Url && ImageSchema.strChecks[1] == MaxLength(MaxFieldLength);
        Some(QuestionPart(Member(question, "text").s, if image.Undefined? then None else Some(image.s)));
    GradingRequest(part, Member(body, "answer").s)
  }

  /** A part of the user message sent to the model. */
  datatype ContentPart = ImagePart(url: string, detail: string) | TextPart(text: string)

  function Tagged(tag: string, s: string): string {
    "<" + tag + ">" + s + "</" + tag + ">"
  }

  /** The text between a tag's opening and closing marks. */
  function Untagged(tag: string, t: string): (r: Option<string>)
    ensures r.Some? ==> Tagged(tag, r.value) == t
  {
    var open := "<" + tag + ">";
    var close := "</" + tag + ">";
    if |t| >= |open| + |close| && t[..|open|] == open && t[|t| - |close|..] == close then
      var r := t[|open|..|t| - |close|];
      assert t == t[..|open|] + r + t[|t| - |close|..];
      Some(r)
    else None
  }

  /** Tagging is undone by untagging: the model sees the answer exactly as sent. */
  lemma UntagTagged(tag: string, s: string)
    ensures Untagged(tag, Tagged(tag, s)) == Some(s)
  {
    var t := Tagged(tag, s);
    var open := "<" + tag + ">";
    var close := "</" + tag + ">";
    assert t == open + s + close;
    assert t[..|open|] == open;
    assert t[|t| - |close|..] == close;
    assert t[|open|..|t| - |close|] == s;
  }

  /**
   * The user message: the image (only for a non-empty image URL), then the
   * tagged question text when there is a question, and always last the
   * tagged answer.
   */
  function ContentParts(req: GradingRequest): (r: seq<ContentPart>)
    ensures 1 <= |r| <= 3
    ensures r[|r| - 1] == TextPart(Tagged("USER_ANSWER", req.answer))
    ensures r[0].ImagePart? <==> req.question.Some? && req.question.value.image.Some? && req.question.value.image.value != ""
    ensures r[0].ImagePart? ==> r[0] == ImagePart(req.question.value.image.value, "high")
    ensures |r| >= 2 <==> req.question.Some?
    ensures req.question.Some? ==> r[|r| - 2] == TextPart(Tagged("QUESTION", req.question.value.text))
    ensures forall i :: 1 <= i < |r| ==> r[i].TextPart?
  {
    var imageParts :=
      if req.question.Some? && req.question.value.image.Some? && req.question.value.image.value != ""
      then [ImagePart(req.question.value.image.value, "high")]
      else [];
    var questionParts :=
      if req.question.Some? then [TextPart(Tagged("QUESTION", req.question.value.text))] else [];
    imageParts + questionParts + [TextPart(Tagged("USER_ANSWER", req.answer))]
  }

  /** What is sent to the grading model: the user message and the reply format. */
  datatype GradingCall = GradingCall(content: seq<ContentPart>, maxTokens: nat, format: map<string, Schema>)

  /** The model call: it may fail, or reply with a message whose content may be absent. */
  datatype ModelReply = ModelFailed | Replied(content: Option<string>)

  /** The jailbreak check: it may fail, or give its verdict. */
  datatype JailbreakCheck = CheckFailed | Verdict(jailbreak: bool)

  /** The scores of a successful grading. */
  datatype Analysis = Analysis(vocabulary: real, grammar: real, relevance: real, grade: real, feedback: string)

  /** The answer body: scores, an error message, or an uncaught failure (the framework's 500 page). */
  datatype Answer = Scores(analysis: Analysis) | ErrorMessage(message: string) | Uncaught

  datatype Outcome = Outcome(status: nat, answer: Answer, sent: Option<GradingCall>)

  predicate WithinBounds(a: Analysis) {
    && 0.0 <= a.vocabulary <= 100.0
    && 0.0 <= a.grammar <= 100.0
    && 0.0 <= a.relevance <= 100.0
    && 0.0 <= a.grade <= 5.0
    && Text.Utf16Length(a.feedback) <= MaxFeedbackLength
  }

  /** The scores read from a reply the response schema accepts: all within their bounds. */
  function ReadAnalysis(v: Json, o: Oracles): (a: Analysis)
    requires Accepts(ResponseSchema, v, o)
    ensures WithinBounds(a)
    ensures |a.feedback| <= MaxFeedbackLength
    ensures Member(v, "vocabulary") == Number(a.vocabulary) && Member(v, "grammar") == Number(a.grammar)
    ensures Member(v, "relevance") == Number(a.relevance) && Member(v, "grade") == Number(a.grade)
    ensures Member(v, "feedback") == Json.Text(a.feedback)
  {
    assert Accepts(ScoreSchema, Member(v, "vocabulary"), o);
    assert Accepts(ScoreSchema, Member(v, "grammar"), o);
    assert Accepts(ScoreSchema, Member(v, "relevance"), o);
    assert Accepts(GradeSchema, Member(v, "grade"), o);
    assert Accepts(FeedbackSchema, Member(v, "feedback"), o);
    assert ScoreSchema.numChecks[0] == Min(0.0) && ScoreSchema.numChecks[1] == Max(100.0);
    assert GradeSchema.numChecks[0] == Min(0.0) && GradeSchema.numChecks[1] == Max(5.0);
    assert FeedbackSchema.strChecks[0] == MaxLength(MaxFeedbackLength);
    Analysis(Member(v, "vocabulary").n, Member(v, "grammar").n, Member(v, "relevance").n,
             Member(v, "grade").n, Member(v, "feedback").s)
  }

  /**
   * `POST /api/grader/score-answer`. `body` is `None` when the request is
   * not JSON and `parse` is `JSON.parse` (`None` when it throws).
   */
  function HandleScoreAnswer(body: Option<Json>, o: Oracles, reply: ModelReply, check: JailbreakCheck,
                             parse: string -> Option<Json>): (r: Outcome)
    ensures r.status == 200 <==> r.answer.Scores?
    ensures r.status in {200, 400, 500}
    ensures r.answer.Scores? ==> WithinBounds(r.answer.analysis)
    ensures r.sent.Some? <==> body.Some? && ValidRequest(body.value, o)
    ensures r.sent.Some? ==> r.sent.value.content == ContentParts(ReadRequest(body.value, o))
    ensures r.sent.Some? ==> r.sent.value.maxTokens == MaxResponseTokens
    ensures r.sent.Some? ==> r.sent.value.format == RemoveUnsupportedProps(ResponseSchema.fields)
    ensures r.answer.Scores? <==>
      && body.Some? && ValidRequest(body.value, o) && check == Verdict(false)
      && reply.Replied? && reply.content.Some? && reply.content.value != ""
      && parse(reply.content.value).Some? && Accepts(ResponseSchema, parse(reply.content.value).value, o)
    ensures r.answer.Scores? ==> r.answer.analysis == ReadAnalysis(parse(reply.content.value).value, o)
  {
    if body.None? then Outcome(500, Uncaught, None)
    else if !ValidRequest(body.value, o) then Outcome(400, ErrorMessage("Invalid request data"), None)
    else
      var sent := Some(GradingCall(ContentParts(ReadRequest(body.value, o)), MaxResponseTokens,
                                   RemoveUnsupportedProps(ResponseSchema.fields)));
      if reply.ModelFailed? || check.CheckFailed? then Outcome(500, Uncaught, sent)
      else if check.jailbreak then Outcome(400, ErrorMessage("Potential jailbreak detected"), sent)
      else if reply.content.None? || reply.content.value == "" then Outcome(500, ErrorMessage("Empty analysis returned"), sent)
      else
        var parsed := parse(reply.content.value);
        if parsed.None? then Outcome(500, Uncaught, sent)
        else if !Accepts(ResponseSchema, parsed.value, o) then Outcome(500, ErrorMessage("Invalid analysis response"), sent)
        else Outcome(200, Scores(ReadAnalysis(parsed.value, o)), sent)
  }

  /** An invalid request is refused with 400 and the model is never called. */
  lemma InvalidRequestNeverReachesModel(body: Json, o: Oracles, reply: ModelReply, check: JailbreakCheck,
                                        parse: string -> Option<Json>)
    requires !ValidRequest(body, o)
    ensures var r := HandleScoreAnswer(Some(body), o, reply, check, parse);
      r.status == 400 && r.sent.None?
  {
  }

  /** A jailbreak verdict gives 400 whatever the model replied, even an empty or malformed reply. */
  lemma JailbreakWinsOverReply(body: Json, o: Oracles, r1: ModelReply, r2: ModelReply, parse: string -> Option<Json>)
    requires ValidRequest(body, o) && r1.Replied? && r2.Replied?
    ensures HandleScoreAnswer(Some(body), o, r1, Verdict(true), parse)
         == HandleScoreAnswer(Some(body), o, r2, Verdict(true), parse)
    ensures HandleScoreAnswer(Some(body), o, r1, Verdict(true), parse).status == 400
  {
  }

  /** Without a jailbreak, an empty reply is a 500 with its own message. */
  lemma EmptyReplyFails(body: Json, o: Oracles, parse: string -> Option<Json>)
    requires ValidRequest(body, o)
    ensures HandleScoreAnswer(Some(body), o, Replied(Some("")), Verdict(false), parse).answer == ErrorMessage("Empty analysis returned")
    ensures HandleScoreAnswer(Some(body), o, Replied(None), Verdict(false), parse).status == 500
  {
  }

  /** A reply that parses and passes the response schema is answered with 200 and its scores. */
  lemma ValidReplyIsAnswered(body: Json, o: Oracles, text: string, parse: string -> Option<Json>)
    requires ValidRequest(body, o) && text != ""
    requires parse(text).Some? && Accepts(ResponseSchema, parse(text).value, o)
    ensures var r := HandleScoreAnswer(Some(body), o, Replied(Some(text)), Verdict(false), parse);
      && r.status == 200 && r.sent.Some?
      && r.answer == Scores(ReadAnalysis(parse(text).value, o))
  {
  }

  /** A reply that parses but fails the response schema is a 500 with its own message. */
  lemma RejectedReplyFails(body: Json, o: Oracles, text: string, parse: string -> Option<Json>)
    requires ValidRequest(body, o) && text != ""
    requires parse(text).Some? && !Accepts(ResponseSchema, parse(text).value, o)
    ensures var r := HandleScoreAnswer(Some(body), o, Replied(Some(text)), Verdict(false), parse);
      r.status == 500 && r.answer == ErrorMessage("Invalid analysis response")
  {
  }

  /** A reply that is not JSON escapes the handler: the framework answers 500. */
  lemma UnparsableReplyIsUncaught(body: Json, o: Oracles, text: string, parse: string -> Option<Json>)
    requires ValidRequest(body, o) && text != "" && parse(text).None?
    ensures var r := HandleScoreAnswer(Some(body), o, Replied(Some(text)), Verdict(false), parse);
      r.status == 500 && r.answer == Uncaught
  {
  }

  /** The reply format sent to the model carries no bounds at all. */
  lemma SentFormatIsUnbounded(body: Option<Json>, o: Oracles, reply: ModelReply, check: JailbreakCheck,
                              parse: string -> Option<Json>)
    requires HandleScoreAnswer(body, o, reply, check, parse).sent.Some?
    ensures var format := HandleScoreAnswer(body, o, reply, check, parse).sent.value.format;
      format == map["vocabulary" := Num([]), "grammar" := Num([]), "relevance" := Num([]),
                    "grade" := Num([]), "feedback" := Str([])]
  {
  }

  /**
   * So the bounds hold only by the local re-validation: a reply of the right
   * shape passes the format the model was sent, yet a grade above 5 is
   * refused.
   */
  lemma OutOfRangeGradeIsCaughtLocally(v: Json, o: Oracles)
    requires Shaped(ResponseSchema, v, o) && Member(v, "grade").Number? && Member(v, "grade").n > 5.0
    ensures Accepts(Obj(RemoveUnsupportedProps(ResponseSchema.fields)), v, o)
    ensures !Accepts(ResponseSchema, v, o)
  {
    StrippedChecksShapeOnly(ResponseSchema, v, o);
    assert "grade" in ResponseSchema.fields && ResponseSchema.fields["grade"] == GradeSchema;
    assert GradeSchema.numChecks[1] == Max(5.0);
    assert !Accepts(GradeSchema, Member(v, "grade"), o);
  }
}

=== FILE: suggestions_route.dfy ===
/**
 * The suggestions endpoint: it asks the model for two replies the learner
 * could say next, at the learner's CEFR level. The context is a system
 * prompt followed by the conversation seen from the tutor's side, so the
 * roles are the reverse of the chat endpoint's. Every failure answers with
 * two fixed replies, never with an error status.
 */
module SuggestionsRoute {
  import opened Common
  import opened Messages
  import ChatRoute
  import Text

  /** The request body; `None` fields were absent from the JSON. */
  datatype SuggestionsRequest = SuggestionsRequest(messages: seq<Message>, proficiency: Option<string>)

  const DefaultProficiency: string := "A1"

  const MaxResponseTokens: nat := 200

  const FallbackSuggestions: seq<string> := ["I'm not sure about that.", "That sounds interesting!"]

  /** The destructuring default applies only to an absent level. */
  function Proficiency(req: SuggestionsRequest): (code: string)
    ensures req.proficiency.Some? ==> code == req.proficiency.value
    ensures req.proficiency.None? ==> code == DefaultProficiency
  {
    if req.proficiency.Some? then req.proficiency.value else DefaultProficiency
  }

  const GuidanceA1: string :=
    "Use very basic phrases and simple vocabulary. "
    + "Short sentences with common everyday expressions. "
    + "Avoid complex grammar or vocabulary."

  const GuidanceA2: string :=
    "Use simple phrases related to familiar topics. "
    + "Basic grammar structures and vocabulary for immediate needs. "
    + "Short, direct sentences."

  const GuidanceB1: string :=
    "Use straightforward language on familiar matters. "
    + "Express opinions simply. "
    + "Use some connecting phrases and more varied vocabulary."

  const GuidanceB2: string :=
    "Use clear, detailed language on a range of subjects. "
    + "Express viewpoints and explain advantages and disadvantages. "
    + "Use more complex sentence structures."

  const GuidanceC1: string :=
    "Use fluent, spontaneous language. "
    + "Express ideas fluently with appropriate vocabulary. "
    + "Use complex sentences and idiomatic expressions."

  const GuidanceC2: string :=
    "Use sophisticated language with precision. "
    + "Express complex ideas with rich vocabulary. "
    + "Use advanced grammar structures and subtle differences in meaning."

  function LevelGuidance(level: Cefr): string {
    match level
    case A1 => GuidanceA1
    case A2 => GuidanceA2
    case B1 => GuidanceB1
    case B2 => GuidanceB2
    case C1 => GuidanceC1
    case C2 => GuidanceC2
  }

  const DefaultGuidance: string := "Use simple, clear language appropriate for an English language learner."

  /** `getProficiencyGuidance`: the level's text for a CEFR code, the default text for anything else. */
  function ProficiencyGuidance(code: string): string {
    var level := ParseCefr(code);
    if level.Some? then LevelGuidance(level.value) else DefaultGuidance
  }

  /** Each CEFR code gets its level's text; every other code the default text. */
  lemma ProficiencyGuidanceTable(code: string)
    ensures forall level :: code == Code(level) ==> ProficiencyGuidance(code) == LevelGuidance(level)
    ensures (forall level :: code != Code(level)) ==> ProficiencyGuidance(code) == DefaultGuidance
  {
    CodesAreParsed();
    ParseCefrIsExact(code);
  }

  /** The six level texts differ from each other and from the default text. */
  lemma GuidanceIsDistinct(a: Cefr, b: Cefr)
    ensures a != b ==> LevelGuidance(a) != LevelGuidance(b)
    ensures LevelGuidance(a) != DefaultGuidance
  {
    assert |GuidanceA1| == 132 && |GuidanceA2| == 132 && |GuidanceB1| == 130;
    assert |GuidanceB2| == 151 && |GuidanceC1| == 134 && |GuidanceC2| == 153 && |DefaultGuidance| == 71;
    assert GuidanceA1[130] == 'y' && GuidanceA2[130] == 's';
  }

  const PromptOpening: string :=
    "You are an English conversation practice assistant. "
    + "Generate 2 possible replies that a language learner might use to respond to the conversation."
    + "\n      \n      The replies should be:"
    + "\n      1. Appropriate for the context of the conversation"
    + "\n      2. At the CEFR "

  const PromptRequirements: string :=
    " level of English proficiency"
    + "\n      3. Short and natural (max 15 words each)"
    + "\n      4. Helpful for someone learning English"
    + "\n      \n      CEFR "

  const PromptGuidanceHeading: string := " level guidance:\n      "

  const PromptFormat: string :=
    "\n      \n      Example output format:"
    + "\n      {"
    + "\n        \"suggestions\": ["
    + "\n          \"Yes, I've been there once. It was amazing!\","
    + "\n          \"I'd love to visit that place someday.\","
    + "\n        ]"
    + "\n      }"

  /** The system prompt: names the level twice and carries the level's guidance. */
  function SystemPrompt(code: string): (r: string)
    ensures Text.InfixAt(r, code, |PromptOpening|)
    ensures Text.InfixAt(r, ProficiencyGuidance(code), GuidanceOffset(code))
  {
    var middle := PromptRequirements + code + PromptGuidanceHeading;
    var guidance := ProficiencyGuidance(code);
    Text.InfixesOfFive(PromptOpening, code, middle, guidance, PromptFormat);
    PromptOpening + code + middle + guidance + PromptFormat
  }

  /** Where the level's guidance starts in the system prompt. */
  function GuidanceOffset(code: string): nat {
    |PromptOpening| + |code| + |PromptRequirements| + |code| + |PromptGuidanceHeading|
  }

  /**
   * The model's context: the system prompt first, then one entry per
   * non-scenario message in transcript order, the learner's own messages
   * as `assistant` and the others as `user`.
   */
  function SuggestionsContext(req: SuggestionsRequest): (r: seq<ContextMessage>)
    ensures |r| == |Conversation(req.messages)| + 1
    ensures r[0].role == System && r[0].content.Some?
    ensures forall i :: 1 <= i < |r| ==>
      var m := Conversation(req.messages)[i - 1];
      r[i].content == Some(m.content) && (r[i].role == Assistant <==> m.self)
  {
    Prepend([ContextMessage(System, Some(SystemPrompt(Proficiency(req))))],
            History(Conversation(req.messages), Assistant, User))
  }

  /**
   * The system message of the context names the requested level (A1 when
   * absent) and carries that level's guidance.
   */
  lemma ContextPromptNamesLevel(req: SuggestionsRequest)
    ensures var r := SuggestionsContext(req); var code := Proficiency(req);
      && Text.InfixAt(r[0].content.value, code, |PromptOpening|)
      && Text.InfixAt(r[0].content.value, ProficiencyGuidance(code), GuidanceOffset(code))
  {
  }

  /** The two endpoints see the same history, each message with the other role. */
  lemma HistoryRolesAreSwapped(messages: seq<Message>, proficiency: Option<string>, assistantName: Option<string>)
    ensures var chat := ChatRoute.ChatContext(ChatRoute.ChatRequest(messages, proficiency, assistantName));
      var suggestions := SuggestionsContext(SuggestionsRequest(messages, proficiency));
      && |chat| == |suggestions| + 1
      && forall i :: 1 <= i < |suggestions| ==>
        suggestions[i].content == chat[i + 1].content
        && (suggestions[i].role == User <==> chat[i + 1].role == Assistant)
        && (suggestions[i].role == Assistant <==> chat[i + 1].role == User)
  {
  }

  /** The model's answer: the call failed, or its parsed `suggestions` list, absent when missing. */
  datatype ModelReply = CallFailed | Parsed(suggestions: Option<seq<string>>)

  /** The endpoint's answer (always status 200) and what was sent to the model, if anything. */
  datatype SuggestionsOutcome = SuggestionsOutcome(sent: Option<ModelRequest>, suggestions: seq<string>)

  /**
   * `POST /api/suggestions`: an unreadable body, a failed call or a missing
   * list all answer the fixed fallback; a present list, even an empty one,
   * is answered as it is.
   */
  function HandleSuggestions(body: Option<SuggestionsRequest>, reply: ModelReply): (r: SuggestionsOutcome)
    ensures r.sent.Some? <==> body.Some?
    ensures r.sent.Some? ==> r.sent.value == ModelRequest(SuggestionsContext(body.value), MaxResponseTokens)
    ensures r.suggestions != FallbackSuggestions && r.suggestions != [] ==> body.Some? && reply == Parsed(Some(r.suggestions))
    ensures body.Some? && reply.Parsed? && reply.suggestions.Some? ==> r.suggestions == reply.suggestions.value
    ensures body.None? || reply.CallFailed? || reply.suggestions.None? ==> r.suggestions == FallbackSuggestions
  {
    if body.None? then SuggestionsOutcome(None, FallbackSuggestions)
    else
      var sent := Some(ModelRequest(SuggestionsContext(body.value), MaxResponseTokens));
      if reply.CallFailed? || reply.suggestions.None? then SuggestionsOutcome(sent, FallbackSuggestions)
      else SuggestionsOutcome(sent, reply.suggestions.value)
  }
}

=== FILE: synthesizer.dfy ===
/**
 * The sentence buffer of the speech synthesizer.
 *
 * Text chunks streamed from the reply generator accumulate in a buffer; the
 * buffer is cut after its rightmost terminal mark ('.', '!' or '?'), the
 * trimmed front part is spoken as one utterance and the rest stays buffered.
 * A chunk that leaves the buffer without a terminal mark schedules a flush
 * call after a fixed delay. `interrupt` replaces the audio sink and the
 * synthesis engine, keeps the voice, and empties the buffer.
 */
module Synthesizer {
  import opened Common
  import Text
  import Credential

  /** Delay after which an unterminated buffer is offered again with `flush` set. */
  const FlushTimeoutMs: nat := 1000

  predicate IsTerminalMark(c: char) {
    c == '.' || c == '!' || c == '?'
  }

  /** `/[.?!]/.test(s)`. */
  predicate HasTerminalMark(s: string) {
    exists i :: 0 <= i < |s| && IsTerminalMark(s[i])
  }

  /** The synthesis engine with its audio sink, as built by `create` or `interrupt`. */
  datatype Engine = Engine(
    token: Credential.TokenValue,
    region: string,
    voiceName: string,   // speechSynthesisVoiceName, chosen once by `create`
    generation: nat,     // how many times the sink and engine were rebuilt
    open: bool)          // false once paused and closed

  datatype Session = Session(
    buffer: string,      // partialSentenceBuffer
    name: string,        // the public display name of the voice
    engine: Engine)

  /** One call of `synthesize`. */
  datatype SynthStep = SynthStep(
    session: Session,
    consumed: string,            // the untrimmed text cut off the front of the buffer
    utterance: Option<string>,   // the text handed to the engine, if any
    flushTimerMs: Option<nat>)   // a flush scheduled by this call

  /** `Math.max` of the three `lastIndexOf` calls: the rightmost terminal mark, or -1. */
  function LastSentenceEnd(s: string): (k: int)
    ensures -1 <= k < |s|
    ensures k == -1 <==> !HasTerminalMark(s)
    ensures k >= 0 ==> IsTerminalMark(s[k])
    ensures forall j :: k < j < |s| ==> !IsTerminalMark(s[j])
  {
    var dot := Text.LastIndexOf(s, '.');
    var bang := Text.LastIndexOf(s, '!');
    var question := Text.LastIndexOf(s, '?');
    var k := if dot >= bang && dot >= question then dot else if bang >= question then bang else question;
    assert HasTerminalMark(s) ==> k >= 0 by {
      if HasTerminalMark(s) {
        var i :| 0 <= i < |s| && IsTerminalMark(s[i]);
        assert s[i] in s;
      }
    }
    k
  }

  /**
   * The buffer cut after index `LastSentenceEnd`: the front part ends with
   * the rightmost terminal mark (and is empty when there is none), the back
   * part holds no terminal mark, and together they are the buffer.
   */
  function CutAfterLastMark(b: string): (r: (string, string))
    ensures r.0 + r.1 == b
    ensures !HasTerminalMark(r.1)
    ensures r.0 == [] <==> !HasTerminalMark(b)
    ensures |r.0| > 0 ==> IsTerminalMark(r.0[|r.0| - 1])
  {
    var k := LastSentenceEnd(b);
    var front := b[..k + 1];
    var back := b[k + 1..];
    assert front + back == b;
    assert !HasTerminalMark(back) by {
      forall i | 0 <= i < |back|
        ensures !IsTerminalMark(back[i])
      {
        assert back[i] == b[k + 1 + i];
      }
    }
    (front, back)
  }

  /**
   * The utterance made of a cut-off front part: its trimmed text, unless that
   * is empty. A front part ending in a terminal mark always yields an
   * utterance, with no surrounding whitespace, ending in that mark.
   */
  function UtteranceOf(front: string): (u: Option<string>)
    ensures u.None? <==> Text.AllWhitespace(front)
    ensures u.Some? ==> u.value == Text.Trim(front)
    ensures |front| > 0 && IsTerminalMark(front[|front| - 1]) ==>
      u.Some? && |u.value| > 0 && u.value[|u.value| - 1] == front[|front| - 1]
  {
    var target := Text.Trim(front);
    assert |front| > 0 && IsTerminalMark(front[|front| - 1]) ==> !Text.IsWhitespace(front[|front| - 1]);
    if target == [] then None else Some(target)
  }

  /**
   * `synthesize(text, flush)`. The chunk is always appended first. Without a
   * terminal mark and without `flush`, nothing is spoken and a flush is
   * scheduled. Otherwise the buffer is cut after its rightmost terminal mark
   * (after index -1 when there is none, so the cut-off part is empty) and the
   * trimmed cut-off part is spoken unless it is empty. The text cut off plus
   * the text kept is always the old buffer plus the chunk.
   */
  function Synthesize(s: Session, chunk: string, flush: bool): (r: SynthStep)
    ensures r.session.name == s.name && r.session.engine == s.engine
    ensures r.consumed + r.session.buffer == s.buffer + chunk
  {
    var buffer := s.buffer + chunk;
    if !HasTerminalMark(buffer) && !flush then
      SynthStep(s.(buffer := buffer), [], None, Some(FlushTimeoutMs))
    else
      var (front, back) := CutAfterLastMark(buffer);
      SynthStep(s.(buffer := back), front, UtteranceOf(front), None)
  }

  /**
   * A call that leaves the buffer without a terminal mark and does not flush
   * speaks nothing, keeps all the text buffered and schedules a flush after
   * 1000 ms.
   */
  lemma UnterminatedChunkWaits(s: Session, chunk: string)
    requires !HasTerminalMark(s.buffer + chunk)
    ensures var r := Synthesize(s, chunk, false);
      r.utterance.None? && r.session.buffer == s.buffer + chunk && r.flushTimerMs == Some(FlushTimeoutMs)
  {
  }

  /**
   * When the buffer holds a terminal mark, the cut is made after the
   * rightmost one: the text cut off ends with that mark, nothing after it is
   * a terminal mark, no flush is scheduled, and the spoken utterance is the
   * cut-off text trimmed, with no surrounding whitespace and ending in the mark.
   */
  lemma TerminatedBufferIsSpoken(s: Session, chunk: string, flush: bool)
    requires HasTerminalMark(s.buffer + chunk)
    ensures var r := Synthesize(s, chunk, flush);
      && r.flushTimerMs.None?
      && !HasTerminalMark(r.session.buffer)
      && |r.consumed| > 0 && IsTerminalMark(r.consumed[|r.consumed| - 1])
      && r.utterance == Some(Text.Trim(r.consumed))
      && var u := r.utterance.value;
      && |u| > 0 && !Text.IsWhitespace(u[0]) && !Text.IsWhitespace(u[|u| - 1])
      && u[|u| - 1] == r.consumed[|r.consumed| - 1]
  {
    var r := Synthesize(s, chunk, flush);
    var u := Text.Trim(r.consumed);
    assert r.utterance == Some(u);
  }

  /**
   * Nothing is spoken exactly when the buffer holds no terminal mark; a flush
   * of such a buffer keeps all of it and schedules nothing.
   */
  lemma NothingSpokenIffNoMark(s: Session, chunk: string, flush: bool)
    ensures var r := Synthesize(s, chunk, flush);
      r.utterance.None? <==> !HasTerminalMark(s.buffer + chunk)
    ensures flush && !HasTerminalMark(s.buffer + chunk) ==>
      var r := Synthesize(s, chunk, flush);
      r.session.buffer == s.buffer + chunk && r.consumed == [] && r.flushTimerMs.None?
  {
    if HasTerminalMark(s.buffer + chunk) {
      TerminatedBufferIsSpoken(s, chunk, flush);
    }
  }

  /** The scheduled flush: `synthesize('', true)` when the timer fires. */
  function FlushTimerFires(s: Session): SynthStep {
    Synthesize(s, [], true)
  }

  /**
   * A flush of a buffer holding no terminal mark speaks nothing and keeps the
   * whole buffer: an unterminated remainder is never spoken by the timer.
   */
  lemma FlushWithoutMarkKeepsBuffer(s: Session)
    requires !HasTerminalMark(s.buffer)
    ensures FlushTimerFires(s).utterance.None?
    ensures FlushTimerFires(s).session == s
    ensures FlushTimerFires(s).flushTimerMs.None?
  {
    assert s.buffer + [] == s.buffer;
  }

  /**
   * `interrupt`: the sink and engine are paused and closed, a credential is
   * obtained, and a new sink and engine are built with the previous voice;
   * only then is the buffer emptied. When obtaining the credential throws, the
   * closed engine stays in place and the buffer keeps its text.
   */
  function Interrupt(s: Session, credential: Result<Credential.AzureCredential, Credential.CredError>): (r: Result<Session, Credential.CredError>)
    ensures r.Ok? <==> credential.Ok?
    ensures r.Ok? ==>
      && r.value.buffer == [] && r.value.name == s.name
      && r.value.engine.voiceName == s.engine.voiceName
      && r.value.engine.open && r.value.engine.generation == s.engine.generation + 1
      && r.value.engine.token == credential.value.token
  {
    match credential
    case Err(e) => Err(e)
    case Ok(c) =>
      Ok(Session([], s.name, Engine(c.token, c.region, s.engine.voiceName, s.engine.generation + 1, true)))
  }

  /** The session left behind when `interrupt` throws: its engine closed, its buffer untouched. */
  function InterruptFailed(s: Session): (r: Session)
    ensures r.buffer == s.buffer && r.name == s.name && !r.engine.open
  {
    s.(engine := s.engine.(open := false))
  }

  /** `interrupt` with the credential taken from the shared cache. */
  function InterruptWithCache(s: Session, cache: Credential.Cache, nowMs: int, decode: Credential.PayloadDecoder,
                              outcome: Credential.FetchOutcome): (r: (Session, Credential.Cache))
    ensures r.1 == Credential.GetAzureCredential(cache, nowMs, decode, outcome).cache
    ensures r.0.name == s.name && r.0.engine.voiceName == s.engine.voiceName
    ensures Credential.GetAzureCredential(cache, nowMs, decode, outcome).result.Ok? <==> r.0.engine.open
    ensures r.0.engine.open ==> r.0.buffer == []
    ensures !r.0.engine.open ==> r.0.buffer == s.buffer
  {
    var step := Credential.GetAzureCredential(cache, nowMs, decode, outcome);
    match Interrupt(s, step.result)
    case Ok(next) => (next, step.cache)
    case Err(_) => (InterruptFailed(s), step.cache)
  }

  /** `stop`: the sink and engine are closed and no new ones are built. */
  function Stop(s: Session): (r: Session)
    ensures r.buffer == s.buffer && r.name == s.name && !r.engine.open
    ensures r.engine.voiceName == s.engine.voiceName
  {
    s.(engine := s.engine.(open := false))
  }

  /** What a series of `synthesize(chunk)` calls, none flushing, produced. */
  datatype Run = Run(session: Session, consumed: seq<string>, utterances: seq<string>, timers: nat)

  function SynthesizeAll(s: Session, chunks: seq<string>): Run
    decreases |chunks|
  {
    if |chunks| == 0 then Run(s, [], [], 0)
    else
      var prev := SynthesizeAll(s, chunks[..|chunks| - 1]);
      var step := Synthesize(prev.session, chunks[|chunks| - 1], false);
      Run(step.session,
          prev.consumed + [step.consumed],
          prev.utterances + (if step.utterance.Some? then [step.utterance.value] else []),
          prev.timers + (if step.flushTimerMs.Some? then 1 else 0))
  }

  lemma Regroup(a: string, b: string, c: string, d: string, e: string)
    requires b + c == d + e
    ensures (a + b) + c == (a + d) + e
  {
    assert (a + b) + c == a + (b + c);
    assert (a + d) + e == a + (d + e);
  }

  /**
   * Nothing is lost or invented across a series of calls: the text cut off
   * the buffer, followed by what is still buffered, is the initial buffer
   * followed by every chunk.
   */
  lemma {:induction false} SynthesizeAllConservesText(s: Session, chunks: seq<string>)
    ensures var run := SynthesizeAll(s, chunks);
      Concat(run.consumed) + run.session.buffer == s.buffer + Concat(chunks)
    decreases |chunks|
  {
    if |chunks| > 0 {
      var front := chunks[..|chunks| - 1];
      var last := chunks[|chunks| - 1];
      var prev := SynthesizeAll(s, front);
      SynthesizeAllConservesText(s, front);
      var step := Synthesize(prev.session, last, false);
      var run := SynthesizeAll(s, chunks);
      assert run.consumed == prev.consumed + [step.consumed];
      assert run.session.buffer == step.session.buffer;
      ConcatSnoc(prev.consumed, step.consumed);
      assert Concat(chunks) == Concat(front) + last;
      Regroup(Concat(prev.consumed), step.consumed, step.session.buffer, prev.session.buffer, last);
    }
  }

  /**
   * Pending flushes are not deduplicated: when no chunk brings a terminal
   * mark, every call schedules its own timer, nothing is spoken and the
   * buffer holds all the text.
   */
  lemma {:induction false} EveryUnterminatedChunkSchedulesATimer(s: Session, chunks: seq<string>)
    requires !HasTerminalMark(s.buffer + Concat(chunks))
    ensures var run := SynthesizeAll(s, chunks);
      run.timers == |chunks| && run.utterances == [] && run.session.buffer == s.buffer + Concat(chunks)
    decreases |chunks|
  {
    if |chunks| > 0 {
      var front := chunks[..|chunks| - 1];
      var last := chunks[|chunks| - 1];
      assert chunks[..|chunks| - 1] == front;
      assert s.buffer + Concat(chunks) == (s.buffer + Concat(front)) + last;
      assert !HasTerminalMark(s.buffer + Concat(front)) by {
        var whole := s.buffer + Concat(chunks);
        var prefix := s.buffer + Concat(front);
        forall i | 0 <= i < |prefix|
          ensures !IsTerminalMark(prefix[i])
        {
          assert prefix[i] == whole[i];
        }
      }
      EveryUnterminatedChunkSchedulesATimer(s, front);
    }
  }

  /** The buffer flush example: "I think" then " it is great." speaks "I think it is great." and leaves nothing. */
  lemma SentenceSpokenOnceComplete(s: Session)
    requires s.buffer == []
    ensures var first := Synthesize(s, "I think", false);
      var second := Synthesize(first.session, " it is great.", false);
      first.utterance.None? && second.utterance == Some("I think it is great.") && second.session.buffer == []
  {
    ExampleFirstChunk(s);
    ExampleSecondChunk(Synthesize(s, "I think", false).session);
  }

  lemma ExampleFirstChunk(s: Session)
    requires s.buffer == []
    ensures var first := Synthesize(s, "I think", false);
      first.utterance.None? && first.session.buffer == "I think"
  {
    var head: string := "I think";
    assert s.buffer + head == head;
    assert !HasTerminalMark(head) by {
      forall i | 0 <= i < |head|
        ensures !IsTerminalMark(head[i])
      {
      }
    }
    UnterminatedChunkWaits(s, head);
  }

  lemma ExampleSecondChunk(t: Session)
    requires t.buffer == "I think"
    ensures var second := Synthesize(t, " it is great.", false);
      second.utterance == Some("I think it is great.") && second.session.buffer == []
  {
    var whole: string := "I think it is great.";
    assert t.buffer + " it is great." == whole;
    assert IsTerminalMark(whole[19]);
    TerminatedBufferIsSpoken(t, " it is great.", false);
    var second := Synthesize(t, " it is great.", false);
    var b, c := second.session.buffer, second.consumed;
    assert c + b == whole;
    MarkEndedTextLeavesNothing(c, b, whole);
    assert c == whole;
    ExampleIsTrimmed();
  }

  lemma MarkEndedTextLeavesNothing(front: string, back: string, whole: string)
    requires front + back == whole && |whole| > 0 && IsTerminalMark(whole[|whole| - 1])
    requires !HasTerminalMark(back)
    ensures back == [] && front == whole
  {
  }

  lemma ExampleIsTrimmed()
    ensures Text.Trim("I think it is great.") == "I think it is great."
  {
    var whole: string := "I think it is great.";
    assert !Text.IsWhitespace(whole[0]) && !Text.IsWhitespace(whole[19]);
    Text.TrimOfTrimmed(whole);
  }
}

=== FILE: text.dfy ===
/**
 * The JavaScript string operations the modelled code relies on, over
 * `string` (a sequence of Unicode scalar values): `trim`, `lastIndexOf`,
 * `includes`, `split` on one character, and `length` in UTF-16 code units.
 */
module Text {

  /** WhiteSpace and LineTerminator code points of ECMA-262, the set `String.prototype.trim` removes. */
  predicate IsWhitespace(c: char) {
    || c == ' ' || c == '\t' || c == '\n' || c == '\r'
    || c == '\U{000B}' || c == '\U{000C}' || c == '\U{00A0}' || c == '\U{FEFF}'
    || c == '\U{1680}' || ('\U{2000}' <= c <= '\U{200A}')
    || c == '\U{2028}' || c == '\U{2029}' || c == '\U{202F}' || c == '\U{205F}' || c == '\U{3000}'
  }

  predicate AllWhitespace(s: string) {
    forall i :: 0 <= i < |s| ==> IsWhitespace(s[i])
  }

  /** Leading whitespace removed: the result is a suffix of `s` and only whitespace was dropped. */
  function TrimStart(s: string): (r: string)
    ensures |r| <= |s| && r == s[|s| - |r|..]
    ensures AllWhitespace(s[..|s| - |r|])
    ensures |r| > 0 ==> !IsWhitespace(r[0])
  {
    if |s| > 0 && IsWhitespace(s[0]) then TrimStart(s[1..]) else s
  }

  /** Trailing whitespace removed: the result is a prefix of `s` and only whitespace was dropped. */
  function TrimEnd(s: string): (r: string)
    ensures |r| <= |s| && r == s[..|r|]
    ensures AllWhitespace(s[|r|..])
    ensures |r| > 0 ==> !IsWhitespace(r[|r| - 1])
  {
    if |s| > 0 && IsWhitespace(s[|s| - 1]) then TrimEnd(s[..|s| - 1]) else s
  }

  /** `sub` occurs in `s` starting at index `k`. */
  predicate InfixAt(s: string, sub: string, k: int) {
    0 <= k <= |s| - |sub| && s[k..k + |sub|] == sub
  }

  /** `sub` occurs in `s` at index `k`, and only whitespace surrounds it. */
  predicate TrimmedAt(s: string, sub: string, k: int) {
    InfixAt(s, sub, k) && AllWhitespace(s[..k]) && AllWhitespace(s[k + |sub|..])
  }

  /** `s.trim()`: the infix of `s` left after both ends lose their whitespace. */
  function Trim(s: string): (r: string)
    ensures exists k :: TrimmedAt(s, r, k)
    ensures r == [] <==> AllWhitespace(s)
    ensures |r| > 0 ==> !IsWhitespace(r[0]) && !IsWhitespace(r[|r| - 1])
    ensures |s| > 0 && !IsWhitespace(s[|s| - 1]) ==> |r| > 0 && r[|r| - 1] == s[|s| - 1]
  {
    TrimIsInfix(s);
    TrimEmptyIffAllWhitespace(s);
    TrimEndsAreNotWhitespace(s);
    TrimKeepsLastMark(s);
    TrimEnd(TrimStart(s))
  }

  lemma TrimEndsAreNotWhitespace(s: string)
    ensures var r := TrimEnd(TrimStart(s)); |r| > 0 ==> !IsWhitespace(r[0]) && !IsWhitespace(r[|r| - 1])
  {
    var t := TrimStart(s);
    var r := TrimEnd(t);
    if |r| > 0 {
      assert r[0] == t[0];
    }
  }

  lemma TrimIsInfix(s: string)
    ensures TrimmedAt(s, TrimEnd(TrimStart(s)), |s| - |TrimStart(s)|)
  {
    var t := TrimStart(s);
    var r := TrimEnd(t);
    var k := |s| - |t|;
    PrefixOfSuffixIsInfix(s, k, r);
    assert s[k + |r|..] == t[|r|..];
  }

  lemma PrefixOfSuffixIsInfix(s: string, k: nat, r: string)
    requires k <= |s| && |r| <= |s| - k && r == s[k..][..|r|]
    ensures InfixAt(s, r, k)
  {
    assert s[k..k + |r|] == s[k..][..|r|];
  }

  lemma TrimEmptyIffAllWhitespace(s: string)
    ensures TrimEnd(TrimStart(s)) == [] <==> AllWhitespace(s)
  {
    var t := TrimStart(s);
    var k := |s| - |t|;
    if TrimEnd(t) == [] {
      // `t` would start with whitespace otherwise, so TrimStart dropped everything.
      assert t[0..] == t;
      assert t == [];
      assert s[..k] == s;
    }
  }

  lemma TrimKeepsLastMark(s: string)
    ensures |s| > 0 && !IsWhitespace(s[|s| - 1]) ==>
      var r := TrimEnd(TrimStart(s)); |r| > 0 && r[|r| - 1] == s[|s| - 1]
  {
    if |s| > 0 && !IsWhitespace(s[|s| - 1]) {
      var t := TrimStart(s);
      assert t[|t| - 1] == s[|s| - 1];
    }
  }

  /** The middle part of a concatenation occurs in it right after the first part. */
  lemma InfixOfMiddle(a: string, b: string, c: string)
    ensures InfixAt(a + b + c, b, |a|)
  {
    assert (a + b + c)[|a|..|a| + |b|] == b;
  }

  /** In `a + x + b + y + c`, `x` starts right after `a` and `y` right after `a + x + b`. */
  lemma InfixesOfFive(a: string, x: string, b: string, y: string, c: string)
    ensures InfixAt(a + x + b + y + c, x, |a|)
    ensures InfixAt(a + x + b + y + c, y, |a| + |x| + |b|)
  {
    InfixOfMiddle(a + x + b, y, c);
    InfixOfMiddle(a, x, b + y + c);
    assert a + x + b + y + c == a + x + (b + y + c);
  }

  /** A string with no whitespace at either end is its own trim. */
  lemma TrimOfTrimmed(s: string)
    requires |s| > 0 && !IsWhitespace(s[0]) && !IsWhitespace(s[|s| - 1])
    ensures Trim(s) == s
  {
  }

  /** `s.lastIndexOf(c)` for a one-character needle: the rightmost index holding `c`, or -1. */
  function LastIndexOf(s: string, c: char): (r: int)
    ensures -1 <= r < |s|
    ensures r == -1 <==> c !in s
    ensures r >= 0 ==> s[r] == c
    ensures forall j :: r < j < |s| ==> s[j] != c
  {
    if |s| == 0 then -1
    else if s[|s| - 1] == c then |s| - 1
    else
      var r := LastIndexOf(s[..|s| - 1], c);
      assert forall j :: r < j < |s| - 1 ==> s[j] == s[..|s| - 1][j];
      assert c in s ==> c in s[..|s| - 1] by {
        if c in s {
          var j :| 0 <= j < |s| && s[j] == c;
          assert s[..|s| - 1][j] == c;
        }
      }
      r
  }

  /** `s.includes(sub)`: `sub` occurs somewhere in `s`. */
  predicate Contains(s: string, sub: string) {
    exists k :: 0 <= k <= |s| - |sub| && InfixAt(s, sub, k)
  }

  /** Number of occurrences of `c` in `s`. */
  function Count(s: string, c: char): nat {
    multiset(s)[c]
  }

  /** `parts.join(c)`. */
  function Join(parts: seq<string>, c: char): string
    requires |parts| > 0
  {
    if |parts| == 1 then parts[0] else Join(parts[..|parts| - 1], c) + [c] + parts[|parts| - 1]
  }

  /**
   * `s.split(c)` for a one-character separator: one more part than there are
   * separators, no part holds the separator, and joining the parts gives `s` back.
   */
  function Split(s: string, c: char): (parts: seq<string>)
    ensures |parts| == Count(s, c) + 1
    ensures forall i :: 0 <= i < |parts| ==> c !in parts[i]
    ensures Join(parts, c) == s
    decreases |s|
  {
    var k := LastIndexOf(s, c);
    if k == -1 then [s]
    else
      var front := Split(s[..k], c);
      assert s == s[..k] + [c] + s[k + 1..];
      var tail := s[k + 1..];
      assert forall j :: 0 <= j < |tail| ==> tail[j] == s[k + 1 + j];
      assert c !in tail;
      assert multiset(s) == multiset(s[..k]) + multiset([c]) + multiset(s[k + 1..]);
      var parts := front + [s[k + 1..]];
      assert parts[..|parts| - 1] == front;
      parts
  }

  predicate IsAsciiLetter(c: char) {
    ('a' <= c <= 'z') || ('A' <= c <= 'Z')
  }

  /** `/[a-zA-Z]+/.test(s)`: some character is an ASCII letter. */
  predicate HasAsciiLetter(s: string) {
    exists i :: 0 <= i < |s| && IsAsciiLetter(s[i])
  }

  /** JavaScript's `s.length`: characters outside the Basic Multilingual Plane take two UTF-16 code units. */
  function Utf16Length(s: string): (n: nat)
    ensures |s| <= n <= 2 * |s|
  {
    if |s| == 0 then 0
    else Utf16Length(s[..|s| - 1]) + (if s[|s| - 1] as int > 0xFFFF then 2 else 1)
  }
}
